=== FILE: README.md ===
# Search server, modelled in Dafny

This project models the sequential engine of a small C++ full-text search
library:

- the tokenisers;
- the document index with its four structures: the inverted table
  (word → id → term frequency), the forward table (id → word → term
  frequency), the metadata table and the ordered id set;
- query parsing, candidate selection, top-5 ranking and MatchDocument;
- the sharded `ConcurrentMap`;
- the collaborators built on the index: `RequestQueue`, `Paginator`,
  `RemoveDuplicates` and `ProcessQueries`.

The server state is the immutable datatype `SearchServer.Server`. Every
operation is a pure function. Where the source throws, the function returns
a `Results.Result` with the exception kind: `InvalidDocumentId`,
`InvalidWord` or `OutOfRange` (a failed `.at`). An exception that escapes
an algorithm run with an execution policy calls std::terminate; that is
the kind `Terminated`.

Modules, following the source files:

| module | file | models |
|---|---|---|
| `Results`, `DocumentTypes`, `Collections`, `Lex` | results.dfy, document_types.dfy, collections.dfy, lex.dfy | exceptions, `Document`, `DocumentStatus`, execution policies, std::set iteration order |
| `StringProcessing` | string_processing.dfy | `SplitIntoWords`, `SplitIntoWordsView`, `MakeUniqueNonEmptyStrings` |
| `SearchServer`, `ServerIndexing` | search_server.dfy, server_indexing.dfy | construction, AddDocument, RemoveDocument, GetWordFrequencies, and the index invariant |
| `QueryParsing` | query_parsing.dfy | ParseQueryWord, ParseQuery |
| `ConcurrentMaps` | concurrent_map.dfy | `ConcurrentMap` buckets, `operator[]`, `erase`, `BuildOrdinaryMap` |
| `Relevance`, `Search` | relevance.dfy, search.dfy | FindAllDocuments under both policies, the sort, FindTopDocuments and its overloads, sequential MatchDocument |
| `RequestQueues` | request_queue.dfy | RequestQueue |
| `Pagination` | paginator.dfy | `IteratorRange`, `Paginator`, `Paginate` |
| `Duplicates` | remove_duplicates.dfy | RemoveDuplicates |
| `BatchQueries` | process_queries.dfy | ProcessQueries, ProcessQueriesJoined |
| `AsWritten` | as_written.dfy | the three operations whose code falls short of what the surrounding code evidently intends, modelled as written (see Findings) |

The index invariant `SearchServer.Valid` has four parts:

- the id set equals the metadata keys;
- every forward entry belongs to a live id;
- the two frequency tables `Mirror` each other, i.e. they hold the same
  (word, id, frequency) triples;
- every stop word is non-empty and valid.

FindAllDocuments is modelled as a sequence of map operations: one `+=` per
(plus word, selected posting) pair, then one erase per (minus word,
posting) pair. The sequential overload applies this sequence to an
ordinary map and the parallel overload applies it to a four-bucket
`ConcurrentMap`. `ConcurrentMaps.ShardedAgrees` proves that both give the
same map.

Term frequencies are `real`. The inverse document frequency is a parameter
`idf(documentCount, postingSize)` in place of `std::log`.

In three places the code defeats its own evident intent. The model states
the intended behaviour and keeps the code as written beside it:

- AddDocument catches an invalid word and calls `RemoveDocument(document_id)`
  to undo the postings already added (search_server.cpp:27-37). That call
  finds no id and does nothing, because the id is inserted only at the end,
  so the partial postings stay.
- The public `RemoveDocument(int)` accepts any id. For a document with no
  non-stop words it throws out_of_range from `document_to_word_freqs_.at`
  (search_server.cpp:79-83), after the id and metadata are already erased.
- ParseQuery hands every piece of `SplitIntoWordsView` to ParseQueryWord,
  which reads `text[0]`. The view splitter yields empty pieces. The other
  splitter, `SplitIntoWords`, skips them (string_processing.cpp:3-23).

Two further facts about the code shape the model. Removal never erases an
emptied posting list, and `SearchServer.RemoveDocument` keeps it too. The
result comparator is not a strict weak order, so only a local order of the
results is stated.

`SearchServer.AddDocument`, `SearchServer.RemoveDocument` and
`QueryParsing.ParseQuery` are the corrected operations. The rest of the
model uses them. The code as written is modelled in `AsWritten` and
described under Findings.

## Model

| member | source | states |
|---|---|---|
| StringProcessing.MakeUniqueNonEmptyStrings | string_processing.h:12-21 | a string is in the result iff it occurs in the input and is non-empty |
| StringProcessing.MakeUniqueNonEmptyStringsIdempotent | string_processing.h:12-21 | normalising any listing of a normalised set gives the same set back |
| StringProcessing.FindSpace | string_processing.cpp:28 | the position of the first space, or the length when there is no space; no space before it |
| StringProcessing.SplitIntoWordsView | string_processing.cpp:25-38 | exactly (number of spaces + 1) pieces, none containing a space; joining them with single spaces gives the input back |
| StringProcessing.SplitIntoWords | string_processing.cpp:3-23 | every word is non-empty and has no space; the words concatenated in order equal the input with its spaces deleted |
| StringProcessing.SplitFrom | string_processing.cpp:7-19 | the character loop with a pending word: its words, flattened, are the pending word followed by the rest of the text without spaces |
| StringProcessing.SplitFromIsNonEmptyView | string_processing.cpp:3-38 | the character loop yields the non-empty pieces of the view splitter on the same text |
| StringProcessing.SplitIntoWordsIsNonEmptyView | string_processing.cpp:3-38 | SplitIntoWords(t) equals the non-empty pieces of SplitIntoWordsView(t), in order |
| StringProcessing.NonEmptyMembers | string_processing.cpp:3-38 | a string is a non-empty piece iff it is a piece and is non-empty |
| StringProcessing.ViewAfterWord | string_processing.cpp:27-35 | a space-free word followed by a space splits into that word and the pieces of the rest |
| Lex.Insert | search_server.cpp:221-225 | std::set insert: the result stays strictly increasing and holds exactly the old elements plus the new one |
| Lex.Transitive | src/search_server.h:103-104 | the std::string order used by the query word sets is transitive |
| Lex.Total | src/search_server.h:103-104 | any two distinct strings are ordered one way or the other |
| Collections.Ascending | search_server.cpp:54-60 | std::set<int> iteration: strictly increasing, with exactly the set's elements |
| SearchServer.NewServer | src/search_server.h:22-31 | construction fails iff some non-empty stop word has a control character; the stored stop words are exactly the non-empty inputs, and the index starts empty and valid |
| SearchServer.NewServerFromText | search_server.cpp:16-19 | the string constructor: the same, over the words of the text |
| SearchServer.IsValidWord | search_server.cpp:174-178 | a word is valid iff none of its characters has code 0 to 31 |
| SearchServer.ValidWordsIffValidText | search_server.cpp:174-178 | every word of a text is valid iff the whole text is, since spaces are not control characters and every other character lies in some word |
| SearchServer.IsStopWord | search_server.cpp:170-172 | a word is a stop word iff it is in the server's stop-word set |
| SearchServer.StopWordsFromText | search_server.cpp:16-19 | a server built from a text of stop words treats exactly the words of that text as stop words |
| SearchServer.GetDocumentCount | search_server.cpp:50-52 | the number of stored documents |
| SearchServer.DocumentCountTracksIds | search_server.cpp:50-52 | under the invariant, the count equals the number of ids begin()/end() walk; a successful add raises it by one; removing a known id lowers it by one; removing an unknown id leaves it unchanged |
| SearchServer.DocumentIdsInOrder | search_server.cpp:54-60 | begin()/end() list every live id once, ascending |
| SearchServer.SplitIntoWordsNoStop | search_server.cpp:180-188 | exactly the non-stop words of the text, each with its multiplicity |
| SearchServer.DropStopWordsAppend | search_server.cpp:182-186 | the filter keeps order: filtering two stretches one after the other gives the filter of the whole |
| SearchServer.DropOneWord | search_server.cpp:183-185 | a single word is kept iff it is not a stop word; with the law above, the result is the non-stop words in their original order |
| SearchServer.ComputeAverageRating | search_server.cpp:190-199 | 0 for no ratings; otherwise the quotient of sum by count truncated toward zero, stated through its remainder for both signs |
| SearchServer.GetWordFrequencies | search_server.cpp:63-72 | empty for an id without a forward entry; under the invariant, exactly the words whose posting list holds the id, with their frequencies |
| SearchServer.FirstInvalid | search_server.cpp:27-28 | the first word with a control character, all earlier words valid |
| SearchServer.AddDocument | search_server.cpp:21-38 | fails with InvalidDocumentId iff the id is negative or present; otherwise fails with InvalidWord iff some non-stop word is invalid; success sets the metadata and adds the id; a failure returns no new server |
| SearchServer.RemoveDocument | search_server.cpp:78-94 | unknown id: no change; known id: leaves the id set, metadata and forward table; the word set of the inverted table is kept |
| SearchServer.EraseEach | search_server.cpp:84-90 | the per-word erase loop keeps every word of the inverted table |
| SearchServer.RemovalOrderIrrelevant | search_server.cpp:84-90 | in any visiting order, the loop erases the id from exactly the visited words' lists, so the sequential and parallel loops agree |
| ServerIndexing.RemoveDocumentWith | search_server.cpp:74-112 | both policy overloads keep the invariant, drop one document for a live id, and leave the id with no words |
| ServerIndexing.AccumulateForward | search_server.cpp:27-30 | the word loop bumps the forward entry of the id once per word and changes no other entry |
| ServerIndexing.AccumulateInverted | search_server.cpp:27-30 | the word loop adds only the document's words to the inverted table and leaves other posting lists alone |
| ServerIndexing.SharesAreTermFrequencies | search_server.cpp:29-30 | adding 1/n per occurrence gives occurrences/n for each word |
| ServerIndexing.TermFrequenciesSumToOne | search_server.cpp:27-30 | the term frequencies of a non-empty document add up to 1 |
| ServerIndexing.AddOccurrenceKeepsMirror | search_server.cpp:29-30 | one loop step keeps the two tables mirrored |
| ServerIndexing.AccumulateKeepsMirror | search_server.cpp:27-35 | the whole word loop keeps the two tables mirrored |
| ServerIndexing.IndexWordsEntry | search_server.cpp:27-35 | indexing a new id stores exactly its term frequencies |
| ServerIndexing.IndexWordsOthers | search_server.cpp:27-35 | indexing adds at most the new id's forward entry and leaves every other one alone |
| ServerIndexing.IndexWordsInverted | search_server.cpp:27-35 | indexing keeps the mirror and leaves the posting lists of other words alone |
| ServerIndexing.AddDocumentIndexes | search_server.cpp:21-38 | a successful add keeps the invariant and raises the document count by one |
| ServerIndexing.AddDocumentFrequencies | search_server.cpp:21-38 | a successful add stores the document's term frequencies and changes no other document's frequencies and no other word's posting list |
| ServerIndexing.RemoveDocumentKeepsMirror | search_server.cpp:78-94 | removal keeps the tables mirrored |
| ServerIndexing.RemoveDocumentPreservesValid | search_server.cpp:78-94 | removal keeps the invariant, lowers the count by one for a live id, and leaves the id with no words |
| ServerIndexing.RemoveDocumentErases | search_server.cpp:78-94 | removal erases the id from every posting list and leaves every other document's frequencies unchanged |
| QueryParsing.ParseQueryWord | search_server.cpp:201-211 | fails iff the piece is a bare or doubled '-'; otherwise the piece is the optional '-' followed by a non-empty word that does not start with '-', with its stop flag |
| QueryParsing.ParsePieces | search_server.cpp:213-231 | fails iff some piece has a control character or is a malformed minus word; otherwise the plus and minus sets are sorted, hold no stop word, and are exactly the words of the matching pieces |
| QueryParsing.EmptyPiecesIrrelevant | search_server.cpp:215-229 | empty pieces neither make the parse fail nor add a word |
| QueryParsing.ParseQuery | search_server.cpp:213-231 | the same, stated over the words of the raw query |
| ConcurrentMaps.BucketIndex | src/concurrent_map.h:32-34 | the bucket is below the bucket count, and for non-negative keys it is the key mod the count |
| ConcurrentMaps.New | src/concurrent_map.h:27-30 | a fixed number of empty buckets, sharded when the count is positive |
| ConcurrentMaps.NewIsEmpty | src/concurrent_map.h:27-30 | a fresh map drains to the empty map |
| ConcurrentMaps.Update | src/concurrent_map.h:17-25 | operator[] with a write: an absent key is default-inserted and updated in its own bucket only, and every other key and bucket is unchanged |
| ConcurrentMaps.Erase | src/concurrent_map.h:47-52 | erase removes only the key from its bucket, and is a no-op for an absent key |
| ConcurrentMaps.InsertAbsent | src/concurrent_map.h:41 | std::map::insert of a range: keys already present keep their value |
| ConcurrentMaps.UnionOfShards | src/concurrent_map.h:36-45 | a key is in the drained map iff it is in its own bucket, with that bucket's value |
| ConcurrentMaps.BucketsDisjoint | src/concurrent_map.h:32-34 | no two buckets share a key |
| ConcurrentMaps.BuildOrdinaryMapIsUnion | src/concurrent_map.h:36-45 | BuildOrdinaryMap is the union of the buckets and loses no value |
| ConcurrentMaps.UpdateAgrees | src/concurrent_map.h:17-34 | an access-and-write on the sharded map equals the same write on the drained map |
| ConcurrentMaps.EraseAgrees | src/concurrent_map.h:47-52 | erase on the sharded map equals erase on the drained map |
| ConcurrentMaps.ShardedAgrees | src/concurrent_map.h:17-52 | any sequence of += accesses and erases followed by BuildOrdinaryMap equals the same sequence applied to one plain map |
| Relevance.PostingOpsEffect | src/search_server.h:130-135 | one posting list adds each selected document's score exactly once |
| Relevance.ApplyAdds | src/search_server.h:133 | += operations create the keys they touch, each holding its old value plus everything added |
| Relevance.ApplyErases | src/search_server.h:142 | erases remove exactly their keys |
| Relevance.PlusOpsAddsOnly | src/search_server.h:125-136 | the plus-word loop only adds |
| Relevance.PlusOpsAddedKeys | src/search_server.h:125-136 | the plus-word loop touches exactly the selected documents in some indexed plus word's posting list; absent words are skipped |
| Relevance.PlusOpsDelta | src/search_server.h:125-136 | each selected document receives exactly its reference TF-IDF sum |
| Relevance.EraseOpsEffect | src/search_server.h:141-143 | the erase loop over one posting list erases exactly its ids |
| Relevance.MinusOpsErasesOnly | src/search_server.h:137-144 | the minus-word loop only erases |
| Relevance.MinusOpsErasedKeys | src/search_server.h:137-144 | the minus-word loop erases exactly the ids indexed under some minus word, whatever the filter |
| Search.PlainRelevance | src/search_server.h:124-144 | after both loops, the map holds exactly the found documents, each with its reference relevance |
| Search.RelevanceMap | src/search_server.h:157-187 | the ordinary map and the four-bucket ConcurrentMap both hold exactly the found documents with their reference relevance |
| Search.FindAllDocuments | src/search_server.h:121-195 | fails iff a plus word's posting list names an id without metadata, with out_of_range in the sequential overload and std::terminate in the parallel one; otherwise ids ascend, an id is returned iff it is selected, under some plus word and under no minus word, and each document carries its stored rating and reference relevance |
| Search.ListedDocuments | src/search_server.h:146-149 | the result vector lists the map's ids ascending, with the map's relevance and the stored rating |
| Search.FindAllPoliciesAgree | src/search_server.h:121-195 | with exact (`real`) arithmetic, the sequential and parallel overloads fail on the same queries and otherwise return the same documents in the same order; on `double` only the failure case, the ids and the ratings are guaranteed to agree (see Left out) |
| Search.Before | src/search_server.h:46-52 | relevance descending, with ties within 1e-6 broken by rating, descending |
| Search.BeforeCycles | src/search_server.h:46-52 | three documents with relevances 0.6e-6 apart each precede the next in a cycle, so the comparator is not a strict weak order |
| Search.StatusIs | src/search_server.h:64-69 | the filter the status overload builds: true iff the document's stored status equals the requested one; id and rating are ignored |
| Search.InsertSorted | src/search_server.h:46-52 | inserting into a locally ordered sequence keeps it locally ordered and adds exactly the element |
| Search.SortDocuments | src/search_server.h:46-52 | the sort returns a permutation in which no neighbour pair is out of order under the comparator |
| Search.Top | src/search_server.h:46-55 | the result has min(n, 5) documents, is locally ordered, and is a sub-multiset of the input |
| Search.TopKeepsListed | src/search_server.h:53-55 | truncation keeps only documents FindAllDocuments returned |
| Search.AllListed | src/search_server.h:121-151 | every returned document is found, with its stored rating and reference relevance |
| Search.FindTopDocuments | src/search_server.h:39-57 | parse and dangling-posting failures propagate, with the policy's failure kind; at most 5 documents, locally ordered, min(n, 5) of the n found taken as a sub-multiset of them, with distinct ids, each found with its stored rating and reference relevance |
| Search.SubMultisetDistinctIds | src/search_server.h:53-55 | a truncation of the found list, whose ids strictly ascend, repeats no id |
| Search.OccursOnce | src/search_server.h:146-149 | the found list, with strictly ascending ids, holds each document at most once |
| Search.FindTopPoliciesAgree | src/search_server.h:39-57 | with exact (`real`) arithmetic, both policies fail on the same queries and otherwise give the same top documents |
| Search.FindTopDocumentsWithStatus | src/search_server.h:64-69 | parse errors and dangling postings fail as in FindTopDocuments; otherwise at most 5 documents with distinct ids, each found for the query with the given stored status, its stored rating and its reference relevance; locally ordered under the comparator, min(n, 5) of the n found with that status, taken from them as a sub-multiset; with fewer than 5 results, every such document is among them |
| Search.FewResultsAreAll | src/search_server.h:53-55 | fewer than 5 results means nothing found was cut |
| Search.FindTopDocumentsActual | src/search_server.h:71-74 | the overload without a filter: the same failures, and at most 5 documents with distinct ids, each found for the query with status Actual, its stored rating and its reference relevance; locally ordered under the comparator, min(n, 5) of the n found Actual documents, taken from them as a sub-multiset; with fewer than 5 results, every found Actual document is among them |
| Search.MatchedWords | search_server.cpp:117-124 | the plus words whose posting list holds the id, in ascending order |
| Search.MatchDocument | search_server.cpp:114-136 | parse errors propagate; an unknown id throws OutOfRange; otherwise the stored status, and no words if a minus word is indexed for the document, else exactly the indexed plus words, ascending |
| Search.MatchDocumentUsesForwardTable | search_server.cpp:114-136 | under the invariant, the matched words are exactly the plus words in the document's own word frequencies |
| RequestQueues.NewRequestQueue | src/request_queue.cpp:3-6 | the initial queue satisfies the invariant and reports no empty results; the server reference is not stored, each request receives the current server |
| RequestQueues.PopFront | src/request_queue.cpp:44-49 | popping n records drops exactly the first n and lowers the counter by the empty ones among them |
| RequestQueues.RemoveOldRequests | src/request_queue.cpp:36-50 | only the last 1440 records are kept, and the counter drops by the empty records removed |
| RequestQueues.UpdateRequests | src/request_queue.cpp:24-34 | the timestamp rises by one, exactly one record is appended before trimming to the window, and the invariant holds |
| RequestQueues.WindowConsecutive | src/request_queue.cpp:36-50 | trimming keeps the timestamps consecutive |
| RequestQueues.GetNoResultRequests | src/request_queue.cpp:20-22 | under the invariant the count is between 0 and 1440 |
| RequestQueues.Record | request_queue.h:14 | recording keeps the invariant; a failed search records nothing |
| RequestQueues.AddFindRequest | request_queue.h:11-16 | the FindTopDocuments result on the server as it is at the request is returned unchanged and recorded |
| RequestQueues.AddFindRequestWithStatus | src/request_queue.cpp:8-12 | the status overload: the status FindTopDocuments result is returned unchanged and recorded |
| RequestQueues.AddFindRequestActual | src/request_queue.cpp:14-18 | the default overload: the Actual FindTopDocuments result is returned unchanged and recorded |
| RequestQueues.Run | src/request_queue.cpp:24-34 | any sequence of updates keeps the invariant |
| RequestQueues.RunKeepsLastWindow | src/request_queue.cpp:24-50 | from a fresh queue, after any run the deque holds exactly the last (at most 1440) records and the timestamp counts the requests |
| RequestQueues.RunCountsEmptyInWindow | src/request_queue.cpp:24-50 | the reported count is the number of empty results among the most recent 1440 requests |
| Pagination.Paginate | src/paginator.h:33-43 | the pages are contiguous from 0 to n, all full except the last (1..page size), and their number is ceil(n / page size) |
| Pagination.AppendPage | src/paginator.h:37-40 | a page starting where the pages end extends them contiguously |
| Pagination.PaginateItems | src/paginator.h:60-63 | concatenating the pages gives the container back; all pages but the last are full, the last has 1..page size items, and there are no pages iff the container is empty |
| Pagination.Contents | src/paginator.h:6-28 | each page is the slice of items between its iterators |
| Pagination.PagesCoverItems | src/paginator.h:33-43 | contiguous pages over the whole range flatten to the container |
| Pagination.PrefixCover | src/paginator.h:33-43 | the first m pages flatten to the items before the m-th page's end |
| Pagination.LastsBounded | src/paginator.h:33-43 | no page of a contiguous pagination runs past the end |
| Duplicates.ScanDuplicates | remove_duplicates.cpp:13-21 | the scan in ascending order collects an id iff its word set is already a key or belongs to an earlier scanned id |
| Duplicates.CollectSeen | remove_duplicates.cpp:18-20 | a failed try_emplace collects the id |
| Duplicates.CollectFirst | remove_duplicates.cpp:18-20 | a successful try_emplace keeps the id and makes every later id with the same set a duplicate |
| Duplicates.DuplicateIds | remove_duplicates.cpp:13-21 | the collected ids are exactly the live ids with a smaller live id sharing their word set |
| Duplicates.RemoveEach | remove_duplicates.cpp:22-25 | removing a list of ids keeps the invariant, drops exactly those ids, and leaves the others' metadata and frequencies unchanged |
| Duplicates.RemoveDuplicates | remove_duplicates.cpp:9-26 | a document survives iff it is live and not a duplicate; survivors keep their metadata and word set |
| Duplicates.NoDuplicatesRemain | remove_duplicates.cpp:9-26 | afterwards no two live documents share a word set |
| Duplicates.EveryWordSetKept | remove_duplicates.cpp:13-21 | every word set present before is still present, carried by its smallest id |
| Duplicates.RemoveDuplicatesCount | remove_duplicates.cpp:22-25 | the document count drops by exactly the number of duplicates |
| BatchQueries.Collect | src/process_queries.cpp:9-17 | the batch fails iff some answer failed; otherwise one answer per index, in order |
| BatchQueries.Answers | src/process_queries.cpp:10-17 | the i-th answer is the default FindTopDocuments of the i-th query |
| BatchQueries.ProcessQueries | src/process_queries.cpp:6-19 | fails iff some query fails, and then with std::terminate; otherwise the output has one entry per query and entry i is FindTopDocuments(queries[i]) with the Actual filter |
| BatchQueries.ProcessQueriesBounded | src/process_queries.cpp:6-19 | every entry has at most 5 documents |
| BatchQueries.ProcessQueriesJoined | src/process_queries.cpp:21-31 | succeeds iff ProcessQueries does; the per-query results concatenated in query order, with length equal to the sum of their lengths |
| BatchQueries.TotalLengthBounded | src/process_queries.cpp:24-30 | lists of at most b items each have at most b times their number items in total |
| BatchQueries.ProcessQueriesJoinedBounded | src/process_queries.cpp:21-31 | the joined result has at most 5 documents per query |
| AsWritten.AddDocumentAsWritten | search_server.cpp:21-38 | the code as written throws exactly when the corrected AddDocument fails, with the same kind |
| AsWritten.AddDocumentAsWrittenAgrees | search_server.cpp:21-38 | without an exception, and for a rejected id, the code as written and the corrected add coincide |
| AsWritten.AddDocumentCorrected | search_server.cpp:21-38 | the corrected add throws exactly what the code as written throws, leaves the server unchanged when it throws, and keeps the invariant |
| AsWritten.RollbackDiffersFromCorrected | search_server.cpp:31-33 | on a valid server, when a valid word precedes an invalid one, both versions throw InvalidWord but the code as written leaves a different server behind |
| AsWritten.AccumulatePostsId | search_server.cpp:27-30 | after the loop every processed word's posting list holds the id, and no posting is lost |
| AsWritten.RollbackLeavesIndexEntries | search_server.cpp:31-33 | with a valid word before an invalid one, the failed add leaves the id in the forward table and in the first word's posting list but not in the id set or metadata, so the invariant breaks |
| AsWritten.LeakedIdBreaksSearch | src/search_server.h:130-131 | afterwards any query with that word as a plus word throws out_of_range |
| AsWritten.TwoWordDocumentLeaks | search_server.cpp:21-38 | a concrete shape, "valid-word invalid-word" under a fresh id, leaks the first word's entries |
| AsWritten.TwoWords | string_processing.cpp:3-23 | two space-free words joined by one space split into exactly those words |
| AsWritten.RemoveDocumentAsWritten | search_server.cpp:78-94 | unknown id: no change; an id without a forward entry throws out_of_range after losing its id and metadata; otherwise the corrected removal |
| AsWritten.RemovingWordlessDocumentThrows | search_server.cpp:79-83 | a successfully added document without non-stop words makes the removal as written throw |
| AsWritten.RemoveWordlessExample | search_server.cpp:79-83 | the empty document added under id 0 cannot be removed as written |
| AsWritten.CorrectedRemoveOfWordless | search_server.cpp:78-94 | the corrected removal removes that document and keeps the invariant |
| AsWritten.ParsePiecesAsWritten | search_server.cpp:201-231 | undefined behaviour only when some piece is empty; with no empty piece it agrees with the corrected loop |
| AsWritten.ParseQueryAsWritten | search_server.cpp:213-231 | undefined behaviour only when the view splitter yields an empty piece |
| AsWritten.LeadingSpaceIsUndefined | search_server.cpp:203 | empty text, or text starting with a space, reads the first character of an empty piece |
| AsWritten.DoubleSpaceIsUndefined | search_server.cpp:203 | a valid word followed by two spaces does the same |
| AsWritten.ParseQueryAsWrittenAgrees | search_server.cpp:213-231 | with no empty piece, the parser as written equals the corrected ParseQuery |

## Left out

- Floating point. Term frequencies and relevances are `real`. `std::log` in ComputeWordInverseDocumentFreq (search_server.cpp:233-235) is replaced by a parameter `idf`. The non-finite value for an emptied posting list is therefore not modelled.
- Search.SortDocuments: states a permutation with no neighbour pair out of order, not a total sort. The 1e-6 comparator is not a strict weak order, so the std::sort call has undefined behaviour. The insertion sort is one admissible outcome.
- Search.FindTopDocuments: which five documents survive truncation depends on that sort, so the contract states local order, the count, that the result is a sub-multiset of the found list with distinct ids, and the per-document facts, not which documents are kept.
- Search.FindTopDocumentsWithStatus, Search.FindTopDocumentsActual: completeness is stated only when fewer than 5 documents come back. With 5 results, which documents were cut depends on the sort.
- The parallel MatchDocument (search_server.cpp:138-164) is left out: its point is a race between clearing and appending. Mutexes, lock guards and std::execution::par are modelled by their sequential effect. For the parallel FindAllDocuments, one fixed order of the accesses is modelled. Each access holds its bucket's lock, and on `real` the sum does not depend on the order, so other orders give the same map.
- Search.FindAllPoliciesAgree, Search.FindTopPoliciesAgree: hold for `real` relevances only. In the parallel overload (src/search_server.h:159-171) the plus words' contributions to one document are added in whatever order the threads run. Addition on `double` is not associative: (0.1 + 0.2) + 0.3 is 0.6000000000000001 but (0.3 + 0.2) + 0.1 is 0.6. With three or more plus words hitting one document, the two overloads can therefore differ in the last bits of a relevance, and the sort can order such documents differently. Only the failure case, the ids and the ratings are guaranteed to agree.
- std::terminate is modelled as the error `Terminated`, which ends the operation with no result. BatchQueries.ProcessQueries returns it when a query throws inside std::transform under std::execution::par. Search.FindAllDocuments returns it for a dangling posting in the parallel overload, where `documents_.at` runs inside std::for_each with std::execution::par (src/search_server.h:159-168).
- RequestQueues.NewRequestQueue: the source stores a `const SearchServer&` (request_queue.h:23), so later additions and removals are visible to the queue. The model stores no server and passes the server, as it is at that moment, to each AddFindRequest.
- ConcurrentMaps.BucketIndex: the cast of a negative key to uint64_t is modelled as the key modulo 2^64. The source only uses non-negative ids.
- SearchServer.ComputeAverageRating: does not model overflow of the int rating sum. RequestQueue's long long timestamp and int counter are unbounded integers.
- SearchServer.IsValidWord: characters are Dafny chars, with codes 0..31 invalid. The signed-char subtlety is not modelled.
- The global `word_freqs_` buffer that GetWordFrequencies returns by reference (search_server.cpp:62) is not modelled. SearchServer.GetWordFrequencies returns the map itself.
- QueryParsing.ParseQueryWord: requires a non-empty piece. The source reads `text[0]` without checking. AsWritten.ParsePiecesAsWritten models that case as undefined behaviour.
- AsWritten.RemoveDocumentAsWritten: requires the two tables to mirror each other. Without that, the `.at` on the inverted table could fail. It runs inside std::for_each with an execution policy (search_server.cpp:84-90), so the failure would call std::terminate rather than throw.
- Duplicates.RemoveDuplicates: models removal with the corrected SearchServer.RemoveDocument. The source calls the RemoveDocument as written (remove_duplicates.cpp:24). Two documents without non-stop words share the empty word set, so the later one is a duplicate. Removing it throws out_of_range, as in the second row of Findings.
- RequestQueues.UpdateRequests, RequestQueues.Record, RequestQueues.AddFindRequest: require the queue invariant `Inv`. NewRequestQueue establishes it and every operation keeps it, so every reachable queue satisfies it.
- RequestQueues.AddFindRequest: the new queue is stated through `Record`. RequestQueues.RecordAppendsOne states what one successful search appends.
- Pagination.Paginate: requires a page size above 0. The source never terminates for page size 0 on non-empty input.
- The `Size` of an `IteratorRange` (src/paginator.h:22-24) is the distance from `first` to `last` by definition. It carries no separate contract.
- Stream output: `operator<<` for IteratorRange, the console output in RemoveDuplicates, and log_duration.h.
- test_example_functions.cpp only prints and catches exceptions around the modelled operations.
- document.h is not part of this model. `Document` and `DocumentStatus` are taken from their uses in the code.

## Findings

| source | as written | input that shows it | evidently intended | confidence | as-written member | corrected member |
|---|---|---|---|---|---|---|
| search_server.cpp:27-37 | on an invalid word, `RemoveDocument(document_id)` is meant to undo the postings already added; it checks `document_ids_`, which gets the id only at line 37, so it does nothing and the partial postings stay | a fresh id with the document "cat \u0001" (a valid word, then a word with a control character) | a failed add leaves the index exactly as it was | high (proved; not executed) | AsWritten.RollbackLeavesIndexEntries | AsWritten.AddDocumentCorrected |
| search_server.cpp:79-83 | RemoveDocument calls `document_to_word_freqs_.at(id)`, which throws for a document that was added with no non-stop words, after the id set and metadata have lost the id | add the empty document "" under id 0, then remove id 0 | such a document is removed like any other | high (proved; not executed) | AsWritten.RemovingWordlessDocumentThrows | AsWritten.CorrectedRemoveOfWordless |
| search_server.cpp:203,215 | ParseQuery passes every SplitIntoWordsView piece to ParseQueryWord, which reads `text[0]`; the view splitter yields empty pieces for leading, trailing and repeated spaces and for empty text | the query " cat", or "cat  " | empty pieces are skipped, as SplitIntoWords does | high (proved; not executed) | AsWritten.LeadingSpaceIsUndefined | QueryParsing.ParseQuery |

=== FILE: as_written.dfy ===
/** The three operations whose code, as written, defeats what the code
    around it evidently intends (a rollback that does nothing, a removal
    that throws, a read of the first character of an empty piece), each
    modelled as it is written, next to a lemma that
    exhibits the departure and one that shows where it agrees with the
    corrected operation the rest of the model uses. */
module AsWritten {
  import opened Results
  import opened Collections
  import opened StringProcessing
  import opened DocumentTypes
  import opened SearchServer
  import opened ServerIndexing
  import opened QueryParsing
  import opened Relevance
  import opened Search

  /** The state an operation leaves behind, and the exception it throws if
      any. */
  datatype Outcome = Outcome(state: Server, thrown: Option<Error>)

  // ---------------------------------------------------------------- AddDocument

  /** AddDocument as written: the word loop indexes the valid words that
      precede the first invalid one, then calls RemoveDocument for the id,
      which does nothing because the id has not been put into the id set
      yet, and throws. */
  function AddDocumentAsWritten(s: Server, id: int, document: string, status: DocumentStatus, ratings: seq<int>): (r: Outcome)
    ensures r.thrown == (if AddDocument(s, id, document, status, ratings).Err? then Some(AddDocument(s, id, document, status, ratings).error) else None)
  {
    if id < 0 || id in s.documents then Outcome(s, Some(InvalidDocumentId))
    else
      var words := SplitIntoWordsNoStop(s, document);
      var k := FirstInvalid(words);
      if k < |words| then
        var partial := Accumulate(s, id, words[..k], 1.0 / (|words| as real));
        Outcome(RemoveDocument(partial, id), Some(InvalidWord))
      else
        var indexed := IndexWords(s, id, words);
        Outcome(indexed.(documents := indexed.documents[id := DocumentData(ComputeAverageRating(ratings), status)],
                         documentIds := indexed.documentIds + {id}), None)
  }

  /** Where nothing throws, the code as written and the corrected
      AddDocument build the same server; where the id is rejected, both
      leave the server alone. */
  lemma AddDocumentAsWrittenAgrees(s: Server, id: int, document: string, status: DocumentStatus, ratings: seq<int>)
    ensures AddDocument(s, id, document, status, ratings).Ok? ==>
      AddDocumentAsWritten(s, id, document, status, ratings) == Outcome(AddDocument(s, id, document, status, ratings).value, None)
    ensures id < 0 || id in s.documents ==> AddDocumentAsWritten(s, id, document, status, ratings).state == s
  {
  }

  /** The corrected AddDocument as an outcome: a failure leaves the server
      exactly as it was, and the invariant is kept either way. */
  function AddDocumentCorrected(s: Server, id: int, document: string, status: DocumentStatus, ratings: seq<int>): (r: Outcome)
    ensures r.thrown == AddDocumentAsWritten(s, id, document, status, ratings).thrown
    ensures r.thrown.Some? ==> r.state == s
    ensures Valid(s) ==> Valid(r.state)
  {
    match AddDocument(s, id, document, status, ratings)
    case Err(e) => Outcome(s, Some(e))
    case Ok(v) =>
      AddKeepsValid(s, id, document, status, ratings);
      Outcome(v, None)
  }

  lemma AddKeepsValid(s: Server, id: int, document: string, status: DocumentStatus, ratings: seq<int>)
    requires AddDocument(s, id, document, status, ratings).Ok?
    ensures Valid(s) ==> Valid(AddDocument(s, id, document, status, ratings).value)
  {
    if Valid(s) {
      AddDocumentIndexes(s, id, document, status, ratings);
    }
  }

  /** Where the rollback matters, the code as written and the corrected
      add throw the same exception but leave different servers. */
  lemma RollbackDiffersFromCorrected(s: Server, id: int, document: string, status: DocumentStatus, ratings: seq<int>)
    requires Valid(s) && id >= 0 && id !in s.documents
    requires var words := SplitIntoWordsNoStop(s, document);
      0 < FirstInvalid(words) < |words|
    ensures AddDocumentCorrected(s, id, document, status, ratings).thrown == Some(InvalidWord)
    ensures AddDocumentAsWritten(s, id, document, status, ratings).state != AddDocumentCorrected(s, id, document, status, ratings).state
  {
    RollbackLeavesIndexEntries(s, id, document, status, ratings);
  }

  /** Every word of the loop leaves `id` in its posting list, and no
      posting is lost. */
  lemma {:induction false} AccumulatePostsId(s: Server, id: int, words: seq<string>, delta: real)
    ensures var r := Accumulate(s, id, words, delta);
      && (forall w :: w in words ==> w in r.wordToDocumentFreqs && id in r.wordToDocumentFreqs[w])
      && (forall w, d :: w in s.wordToDocumentFreqs && d in s.wordToDocumentFreqs[w] ==>
            w in r.wordToDocumentFreqs && d in r.wordToDocumentFreqs[w])
    decreases |words|
  {
    if |words| > 0 {
      var w0 := words[0];
      var t := AddOccurrence(s, w0, id, delta);
      var posting := Bump(Get(s.wordToDocumentFreqs, w0, map[]), id, delta);
      assert t.wordToDocumentFreqs == s.wordToDocumentFreqs[w0 := posting];
      assert id in posting;
      forall w, d | w in s.wordToDocumentFreqs && d in s.wordToDocumentFreqs[w]
        ensures w in t.wordToDocumentFreqs && d in t.wordToDocumentFreqs[w]
      {
        if w == w0 {
          assert d in Get(s.wordToDocumentFreqs, w0, map[]);
        }
      }
      AccumulatePostsId(t, id, words[1..], delta);
      assert forall w :: w in words ==> w == w0 || w in words[1..];
    }
  }

  /** The rollback is a no-op: when a valid word precedes an invalid one,
      the failed call leaves the id in the forward table and in the posting
      list of the first word, while the id is in neither the id set nor the
      metadata table. The server invariant is broken. */
  lemma RollbackLeavesIndexEntries(s: Server, id: int, document: string, status: DocumentStatus, ratings: seq<int>)
    requires id >= 0 && id !in s.documents && id !in s.documentIds
    requires var words := SplitIntoWordsNoStop(s, document);
      0 < FirstInvalid(words) < |words|
    ensures var r := AddDocumentAsWritten(s, id, document, status, ratings);
      var w := SplitIntoWordsNoStop(s, document)[0];
      && r.thrown == Some(InvalidWord)
      && id in r.state.documentToWordFreqs
      && w in r.state.wordToDocumentFreqs && id in r.state.wordToDocumentFreqs[w]
      && id !in r.state.documents && id !in r.state.documentIds
      && !Valid(r.state)
  {
    var words := SplitIntoWordsNoStop(s, document);
    var k := FirstInvalid(words);
    var delta := 1.0 / (|words| as real);
    AccumulateForward(s, id, words[..k], delta);
    AccumulatePostsId(s, id, words[..k], delta);
    assert words[0] in words[..k];
  }

  /** The searches that follow: any query with that word among its plus
      words now throws std::out_of_range, because the posting list names an
      id the metadata table does not have. */
  lemma LeakedIdBreaksSearch(s: Server, id: int, document: string, status: DocumentStatus, ratings: seq<int>,
                             q: Query, pred: DocumentPredicate, idf: Idf)
    requires id >= 0 && id !in s.documents && id !in s.documentIds
    requires var words := SplitIntoWordsNoStop(s, document);
      0 < FirstInvalid(words) < |words|
    requires SplitIntoWordsNoStop(s, document)[0] in q.plusWords
    ensures FindAllDocuments(Sequenced, AddDocumentAsWritten(s, id, document, status, ratings).state, q, pred, idf) == Err(OutOfRange)
  {
    RollbackLeavesIndexEntries(s, id, document, status, ratings);
    var r := AddDocumentAsWritten(s, id, document, status, ratings).state;
    var w := SplitIntoWordsNoStop(s, document)[0];
    assert w in q.plusWords && w in r.wordToDocumentFreqs && id in r.wordToDocumentFreqs[w] && id !in r.documents;
  }
  /** A two-word document whose second word has a control character, such
      as "cat \u0001", added under a fresh id, leaks the first word's
      index entries. */
  lemma TwoWordDocumentLeaks(s: Server, id: int, first: string, second: string, status: DocumentStatus, ratings: seq<int>)
    requires id >= 0 && id !in s.documents && id !in s.documentIds
    requires |first| > 0 && ' ' !in first && IsValidWord(first) && first !in s.stopWords
    requires |second| > 0 && ' ' !in second && !IsValidWord(second) && second !in s.stopWords
    ensures var r := AddDocumentAsWritten(s, id, first + [' '] + second, status, ratings);
      && r.thrown == Some(InvalidWord)
      && id in r.state.documentToWordFreqs
      && first in r.state.wordToDocumentFreqs && id in r.state.wordToDocumentFreqs[first]
      && id !in r.state.documents
      && !Valid(r.state)
  {
    var document := first + [' '] + second;
    TwoWords(first, second);
    var words := SplitIntoWordsNoStop(s, document);
    assert words == [first, second] by {
      assert DropStopWords([second], s.stopWords) == [second];
    }
    assert words[1..] == [second];
    assert FirstInvalid(words) == 1;
    RollbackLeavesIndexEntries(s, id, document, status, ratings);
  }

  /** Two words separated by one space split into exactly those two words. */
  lemma TwoWords(first: string, second: string)
    requires |first| > 0 && ' ' !in first
    requires |second| > 0 && ' ' !in second
    ensures SplitIntoWords(first + [' '] + second) == [first, second]
  {
    var text := first + [' '] + second;
    assert text == first + ([' '] + second);
    assert ([' '] + second)[1..] == second;
    ViewAfterWord(first, [' '] + second);
    ViewOfWord(second);
    NonEmptyCons(second, []);
    NonEmptyCons(first, [second]);
    SplitIntoWordsIsNonEmptyView(text);
  }

  // ---------------------------------------------------------------- RemoveDocument

  /** RemoveDocument as written, on a server whose two frequency tables
      mirror each other (which makes the `.at` of the erase loop succeed):
      the id set and metadata entries go first; then `.at` on the forward
      table throws std::out_of_range when the document has no entry there,
      which is the case for a document without a single non-stop word. */
  function RemoveDocumentAsWritten(s: Server, id: int): (r: Outcome)
    requires Mirror(s.wordToDocumentFreqs, s.documentToWordFreqs)
    ensures id !in s.documentIds ==> r == Outcome(s, None)
    ensures id in s.documentIds && id !in s.documentToWordFreqs ==>
      r.thrown == Some(OutOfRange) && r.state.documentIds == s.documentIds - {id} && r.state.documents == s.documents - {id}
    ensures id in s.documentToWordFreqs ==> r == Outcome(RemoveDocument(s, id), None)
  {
    if id !in s.documentIds then Outcome(s, None)
    else if id !in s.documentToWordFreqs then
      Outcome(s.(documentIds := s.documentIds - {id}, documents := s.documents - {id}), Some(OutOfRange))
    else Outcome(RemoveDocument(s, id), None)
  }

  /** A document whose every word is a stop word (or that has no word at
      all) is added fine but cannot be removed: the removal throws, after
      the id set and the metadata have already lost the id. */
  lemma RemovingWordlessDocumentThrows(s: Server, id: int, document: string, status: DocumentStatus, ratings: seq<int>)
    requires Valid(s)
    requires AddDocument(s, id, document, status, ratings).Ok?
    requires SplitIntoWordsNoStop(s, document) == []
    ensures var added := AddDocument(s, id, document, status, ratings).value;
      && Mirror(added.wordToDocumentFreqs, added.documentToWordFreqs)
      && RemoveDocumentAsWritten(added, id).thrown == Some(OutOfRange)
  {
    AddDocumentIndexes(s, id, document, status, ratings);
    AddDocumentFrequencies(s, id, document, status, ratings);
  }

  /** A concrete instance: the empty document. */
  lemma RemoveWordlessExample()
    ensures var added := AddDocument(EmptyServer({}), 0, "", Actual, []).value;
      && Mirror(added.wordToDocumentFreqs, added.documentToWordFreqs)
      && RemoveDocumentAsWritten(added, 0).thrown == Some(OutOfRange)
  {
    assert SplitIntoWords("") == [];
    RemovingWordlessDocumentThrows(EmptyServer({}), 0, "", Actual, []);
  }

  /** The corrected RemoveDocument removes the same document completely and
      keeps the server invariant. */
  lemma CorrectedRemoveOfWordless(s: Server, id: int, document: string, status: DocumentStatus, ratings: seq<int>)
    requires Valid(s)
    requires AddDocument(s, id, document, status, ratings).Ok?
    requires SplitIntoWordsNoStop(s, document) == []
    ensures var added := AddDocument(s, id, document, status, ratings).value;
      && Valid(RemoveDocument(added, id))
      && RemoveDocument(added, id).documents == s.documents
  {
    AddDocumentIndexes(s, id, document, status, ratings);
    var added := AddDocument(s, id, document, status, ratings).value;
    RemoveDocumentPreservesValid(added, id);
  }

  // ---------------------------------------------------------------- ParseQuery

  /** What the query parser as written can end in: a query, an exception,
      or undefined behaviour (reading the first character of an empty
      std::string_view). */
  datatype ParseOutcome = Parsed(query: Query) | Thrown(error: Error) | Undefined

  /** The parse loop as written: every piece, empty ones included, goes
      through IsValidWord and then ParseQueryWord, which reads `text[0]`. */
  function ParsePiecesAsWritten(s: Server, pieces: seq<string>, q: Query): (r: ParseOutcome)
    requires WellFormed(q)
    ensures r.Undefined? ==> exists p :: p in pieces && |p| == 0
    ensures (forall p :: p in pieces ==> |p| > 0) ==>
      r == (match ParsePieces(s, pieces, q) case Ok(v) => Parsed(v) case Err(e) => Thrown(e))
    decreases |pieces|
  {
    if |pieces| == 0 then Parsed(q)
    else
      var p := pieces[0];
      assert forall x :: x in pieces <==> x == p || x in pieces[1..];
      if !IsValidWord(p) then Thrown(InvalidWord)
      else if |p| == 0 then Undefined
      else
        match ParseQueryWord(s, p)
        case Err(e) => Thrown(e)
        case Ok(w) =>
          if w.isStop then ParsePiecesAsWritten(s, pieces[1..], q)
          else if w.isMinus then ParsePiecesAsWritten(s, pieces[1..], q.(minusWords := Lex.Insert(q.minusWords, w.data)))
          else ParsePiecesAsWritten(s, pieces[1..], q.(plusWords := Lex.Insert(q.plusWords, w.data)))
  }

  function ParseQueryAsWritten(s: Server, text: string): (r: ParseOutcome)
    ensures r.Undefined? ==> exists p :: p in SplitIntoWordsView(text) && |p| == 0
  {
    ParsePiecesAsWritten(s, SplitIntoWordsView(text), EmptyQuery)
  }

  /** Empty text, or text that starts with a space, makes the first piece
      empty, and the parser reads past its end. */
  lemma LeadingSpaceIsUndefined(s: Server, text: string)
    requires |text| == 0 || text[0] == ' '
    ensures ParseQueryAsWritten(s, text) == Undefined
  {
    LeadingEmptyPiece(text);
  }

  /** Two spaces in a row after a valid word do the same. */
  lemma DoubleSpaceIsUndefined(s: Server, word: string)
    requires |word| > 0 && ' ' !in word && !Rejected(word)
    ensures ParseQueryAsWritten(s, word + "  ") == Undefined
  {
    ViewAfterWord(word, "  ");
    assert "  "[1..] == " ";
    LeadingEmptyPiece(" ");
    var rest := SplitIntoWordsView(" ");
    var pieces := SplitIntoWordsView(word + "  ");
    assert pieces == [word] + rest;
    assert pieces[1..] == rest;
    var w := ParseQueryWord(s, word).value;
    var q := if w.isStop then EmptyQuery
      else if w.isMinus then EmptyQuery.(minusWords := Lex.Insert([], w.data))
      else EmptyQuery.(plusWords := Lex.Insert([], w.data));
    assert ParsePiecesAsWritten(s, pieces, EmptyQuery) == ParsePiecesAsWritten(s, rest, q);
    assert IsValidWord(rest[0]);
  }

  /** Where the text has no empty piece, the parser as written and the
      corrected ParseQuery agree. */
  lemma ParseQueryAsWrittenAgrees(s: Server, text: string)
    requires forall p :: p in SplitIntoWordsView(text) ==> |p| > 0
    ensures ParseQueryAsWritten(s, text) ==
      (match ParseQuery(s, text) case Ok(v) => Parsed(v) case Err(e) => Thrown(e))
  {
  }
}

=== FILE: collections.dfy ===
/** Small facts about sequences, sets and maps that the rest of the model
    shares: ordered enumeration of an id set, flattening, integer sums and
    the sum of the values of a real-valued map. */
module Collections {

  /** `m[k]`, or `default` when `k` is absent (the value std::map's
      `operator[]` default-inserts). */
  function Get<K, V>(m: map<K, V>, k: K, default: V): V
  {
    if k in m then m[k] else default
  }

  function Sum(xs: seq<int>): int
  {
    if |xs| == 0 then 0 else Sum(xs[..|xs| - 1]) + xs[|xs| - 1]
  }

  /** Concatenation of the inner sequences, in order. */
  function Flatten<T>(xss: seq<seq<T>>): seq<T>
  {
    if |xss| == 0 then [] else xss[0] + Flatten(xss[1..])
  }

  lemma {:induction false} FlattenMembers<T>(xss: seq<seq<T>>, x: T)
    ensures x in Flatten(xss) <==> exists xs :: xs in xss && x in xs
    decreases |xss|
  {
    if |xss| > 0 {
      FlattenMembers(xss[1..], x);
      assert forall xs :: xs in xss <==> xs == xss[0] || xs in xss[1..];
    }
  }

  function TotalLength<T>(xss: seq<seq<T>>): nat
  {
    if |xss| == 0 then 0 else |xss[0]| + TotalLength(xss[1..])
  }

  lemma {:induction false} FlattenLength<T>(xss: seq<seq<T>>)
    ensures |Flatten(xss)| == TotalLength(xss)
  {
    if |xss| > 0 {
      FlattenLength(xss[1..]);
    }
  }

  lemma {:induction false} FlattenAppend<T>(xss: seq<seq<T>>, ys: seq<T>)
    ensures Flatten(xss + [ys]) == Flatten(xss) + ys
  {
    if |xss| == 0 {
      assert xss + [ys] == [ys];
    } else {
      assert (xss + [ys])[1..] == xss[1..] + [ys];
      FlattenAppend(xss[1..], ys);
    }
  }

  predicate StrictlyIncreasing(xs: seq<int>)
  {
    forall i, j :: 0 <= i < j < |xs| ==> xs[i] < xs[j]
  }

  lemma {:induction false} MinimumExists(s: set<int>)
    requires |s| > 0
    ensures exists m :: m in s && forall x :: x in s ==> m <= x
    decreases |s|
  {
    assert exists y :: y in s by {
      if forall y :: y !in s {
        assert false;
      }
    }
    var y :| y in s;
    var rest := s - {y};
    if |rest| == 0 {
      assert forall x :: x in s ==> x == y;
    } else {
      MinimumExists(rest);
      var m :| m in rest && forall x :: x in rest ==> m <= x;
      var low := if y < m then y else m;
      assert forall x :: x in s ==> x == y || x in rest;
      assert low in s && forall x :: x in s ==> low <= x;
    }
  }

  /** The least element of a non-empty set. */
  function Minimum(s: set<int>): (m: int)
    requires |s| > 0
    ensures m in s && forall x :: x in s ==> m <= x
  {
    MinimumExists(s);
    var m :| m in s && forall x :: x in s ==> m <= x;
    m
  }

  /** The elements of `s` in ascending order: the iteration order of a
      std::set<int> or of the keys of a std::map<int, _>. */
  function Ascending(s: set<int>): (r: seq<int>)
    ensures StrictlyIncreasing(r)
    ensures forall x :: x in r <==> x in s
    ensures |r| == |s|
    decreases |s|
  {
    if |s| == 0 then []
    else
      var m := Minimum(s);
      var rest := Ascending(s - {m});
      assert forall j :: 0 <= j < |rest| ==> m < rest[j] by {
        forall j | 0 <= j < |rest| ensures m < rest[j] {
          assert rest[j] in s - {m};
        }
      }
      ConsIncreasing(m, rest);
      assert forall x :: x in [m] + rest <==> x == m || x in rest;
      [m] + rest
  }

  lemma ConsIncreasing(m: int, rest: seq<int>)
    requires StrictlyIncreasing(rest)
    requires forall j :: 0 <= j < |rest| ==> m < rest[j]
    ensures StrictlyIncreasing([m] + rest)
  {
    var r := [m] + rest;
    forall i, j | 0 <= i < j < |r|
      ensures r[i] < r[j]
    {
      assert r[j] == rest[j - 1];
      if i > 0 {
        assert r[i] == rest[i - 1];
      }
    }
  }

  /** A non-empty map has a key. */
  lemma MapInhabited<K>(m: map<K, real>)
    requires m != map[]
    ensures exists k :: k in m
  {
    if forall k :: k !in m {
      assert false;
    }
  }

  /** Any key of a non-empty map, chosen once and for all. */
  ghost function PickKey<K>(m: map<K, real>): (k: K)
    requires m != map[]
    ensures k in m
  {
    MapInhabited(m);
    var k :| k in m; k
  }

  /** The sum of the values of `m`. */
  ghost function MapSum<K>(m: map<K, real>): real
    decreases |m|
  {
    if m == map[] then 0.0
    else
      var k := PickKey(m);
      m[k] + MapSum(m - {k})
  }

  /** The sum does not depend on which key is taken out first. */
  lemma {:induction false} MapSumRemove<K>(m: map<K, real>, k: K)
    requires k in m
    ensures MapSum(m) == m[k] + MapSum(m - {k})
    decreases |m|
  {
    var j := PickKey(m);
    if j != k {
      MapSumRemove(m - {j}, k);
      MapSumRemove(m - {k}, j);
      assert m - {j} - {k} == m - {k} - {j};
    }
  }

  /** `m[k] += delta` on a map whose operator[] default-inserts 0.0. */
  function Bump<K>(m: map<K, real>, k: K, delta: real): (r: map<K, real>)
    ensures r.Keys == m.Keys + {k}
    ensures r[k] == Get(m, k, 0.0) + delta
    ensures forall j :: j in m && j != k ==> r[j] == m[j]
  {
    m[k := Get(m, k, 0.0) + delta]
  }

  /** Adding `delta` to one slot adds `delta` to the sum. */
  lemma {:induction false} MapSumAddTo<K>(m: map<K, real>, k: K, delta: real)
    ensures MapSum(Bump(m, k, delta)) == MapSum(m) + delta
  {
    var m' := Bump(m, k, delta);
    MapSumRemove(m', k);
    if k in m {
      MapSumRemove(m, k);
      assert m' - {k} == m - {k};
    } else {
      assert m' - {k} == m;
    }
  }

  /** `n` copies of `d` added together: repeated addition keeps the proofs
      about bumping in linear arithmetic. */
  function Times(n: nat, d: real): real
  {
    if n == 0 then 0.0 else Times(n - 1, d) + d
  }

  lemma {:induction false} TimesIsProduct(n: nat, d: real)
    ensures Times(n, d) == (n as real) * d
  {
    if n > 0 {
      TimesIsProduct(n - 1, d);
      assert (n as real) * d == ((n - 1) as real) * d + d;
    }
  }

  /** Bump every key of `ks` in turn, once per occurrence. */
  function BumpEach<K>(m: map<K, real>, ks: seq<K>, delta: real): (r: map<K, real>)
    decreases |ks|
  {
    if |ks| == 0 then m else BumpEach(Bump(m, ks[0], delta), ks[1..], delta)
  }

  /** Each key ends with its old value plus `delta` per occurrence. */
  lemma {:induction false} BumpEachValues<K>(m: map<K, real>, ks: seq<K>, delta: real)
    ensures forall k :: k in BumpEach(m, ks, delta) <==> k in m || k in ks
    ensures forall k :: k in BumpEach(m, ks, delta) ==>
      BumpEach(m, ks, delta)[k] == Get(m, k, 0.0) + Times(multiset(ks)[k], delta)
    decreases |ks|
  {
    if |ks| > 0 {
      var m1 := Bump(m, ks[0], delta);
      BumpEachValues(m1, ks[1..], delta);
      forall k | k in BumpEach(m, ks, delta)
        ensures BumpEach(m, ks, delta)[k] == Get(m, k, 0.0) + Times(multiset(ks)[k], delta)
      {
        assert Get(m1, k, 0.0) == Get(m, k, 0.0) + (if k == ks[0] then delta else 0.0);
        CountStep(ks, k, delta);
      }
    }
  }

  /** The sum grows by `delta` per key of `ks`. */
  lemma {:induction false} BumpEachSum<K>(m: map<K, real>, ks: seq<K>, delta: real)
    ensures MapSum(BumpEach(m, ks, delta)) == MapSum(m) + Times(|ks|, delta)
    decreases |ks|
  {
    if |ks| > 0 {
      BumpEachSum(Bump(m, ks[0], delta), ks[1..], delta);
      MapSumAddTo(m, ks[0], delta);
    }
  }

  lemma CountStep<K>(ks: seq<K>, k: K, delta: real)
    requires |ks| > 0
    ensures Times(multiset(ks)[k], delta)
            == Times(multiset(ks[1..])[k], delta) + (if k == ks[0] then delta else 0.0)
  {
    assert ks == [ks[0]] + ks[1..];
    assert multiset(ks)[k] == multiset(ks[1..])[k] + (if k == ks[0] then 1 else 0);
  }
}

=== FILE: concurrent_map.dfy ===
/** ConcurrentMap<Key, Value>: a fixed vector of buckets, each an ordinary
    map guarded by its own mutex. The mutexes are left out; every operation
    is one step on the bucket vector. */
module ConcurrentMaps {
  import opened Collections

  /** Keys are cast to a 64-bit unsigned integer before the modulo. */
  const TwoTo64: int := 0x1_0000_0000_0000_0000

  datatype ConcurrentMap<V> = ConcurrentMap(buckets: seq<map<int, V>>)

  /** The bucket of `key`: `static_cast<uint64_t>(key) % count`. Access and
      erase both use this index. */
  function BucketIndex(key: int, count: nat): (i: nat)
    requires count > 0
    ensures i < count
    ensures 0 <= key < TwoTo64 ==> i == key % count
  {
    (key % TwoTo64) % count
  }

  /** Every key sits in the bucket its index selects, for `count` buckets. */
  ghost predicate Sharded<V>(bs: seq<map<int, V>>, count: nat)
    requires count > 0
  {
    forall i, k :: 0 <= i < |bs| && k in bs[i] ==> BucketIndex(k, count) == i
  }

  ghost predicate Valid<V>(cm: ConcurrentMap<V>)
  {
    |cm.buckets| > 0 && Sharded(cm.buckets, |cm.buckets|)
  }

  /** The constructor: `bucketCount` empty buckets. */
  function New<V>(bucketCount: nat): (cm: ConcurrentMap<V>)
    ensures |cm.buckets| == bucketCount
    ensures forall i :: 0 <= i < bucketCount ==> cm.buckets[i] == map[]
    ensures bucketCount > 0 ==> Valid(cm)
  {
    ConcurrentMap(seq(bucketCount, _ => map[]))
  }

  /** A fresh map holds nothing. */
  lemma NewIsEmpty<V>(bucketCount: nat)
    requires bucketCount > 0
    ensures BuildOrdinaryMap(New<V>(bucketCount)) == map[]
  {
    var cm := New<V>(bucketCount);
    UnionOfShards(cm.buckets, bucketCount);
    forall k
      ensures k !in BuildOrdinaryMap(cm)
    {
      assert cm.buckets[BucketIndex(k, bucketCount)] == map[];
    }
    assert BuildOrdinaryMap(cm).Keys == {};
  }

  /** operator[] followed by a write through the returned reference: an
      absent key is default-inserted as `zero`, then `f` is applied to the
      slot. Only the key's own bucket changes. */
  function Update<V>(cm: ConcurrentMap<V>, key: int, zero: V, f: V -> V): (r: ConcurrentMap<V>)
    requires |cm.buckets| > 0
    ensures |r.buckets| == |cm.buckets|
    ensures Valid(cm) ==> Valid(r)
    ensures var i := BucketIndex(key, |cm.buckets|);
      && key in r.buckets[i] && r.buckets[i][key] == f(Get(cm.buckets[i], key, zero))
      && (forall k :: k != key ==> (k in r.buckets[i] <==> k in cm.buckets[i]))
      && (forall k :: k != key && k in cm.buckets[i] ==> r.buckets[i][k] == cm.buckets[i][k])
    ensures forall j :: 0 <= j < |cm.buckets| && j != BucketIndex(key, |cm.buckets|) ==> r.buckets[j] == cm.buckets[j]
  {
    var i := BucketIndex(key, |cm.buckets|);
    var b := cm.buckets[i];
    ConcurrentMap(cm.buckets[i := b[key := f(Get(b, key, zero))]])
  }

  /** erase(key): removes `key` from its bucket; a no-op for an absent key. */
  function Erase<V>(cm: ConcurrentMap<V>, key: int): (r: ConcurrentMap<V>)
    requires |cm.buckets| > 0
    ensures |r.buckets| == |cm.buckets|
    ensures Valid(cm) ==> Valid(r)
    ensures var i := BucketIndex(key, |cm.buckets|);
      r.buckets[i] == cm.buckets[i] - {key}
    ensures forall j :: 0 <= j < |cm.buckets| && j != BucketIndex(key, |cm.buckets|) ==> r.buckets[j] == cm.buckets[j]
  {
    var i := BucketIndex(key, |cm.buckets|);
    ConcurrentMap(cm.buckets[i := cm.buckets[i] - {key}])
  }

  /** std::map::insert of a range: keys already present keep their value. */
  function InsertAbsent<V>(m: map<int, V>, b: map<int, V>): (r: map<int, V>)
    ensures r.Keys == m.Keys + b.Keys
    ensures forall k :: k in m ==> r[k] == m[k]
    ensures forall k :: k in b && k !in m ==> r[k] == b[k]
  {
    map k | k in m.Keys + b.Keys :: if k in m then m[k] else b[k]
  }

  /** The buckets inserted one after another into an empty map. */
  function Union<V>(bs: seq<map<int, V>>): map<int, V>
  {
    if |bs| == 0 then map[] else InsertAbsent(Union(bs[..|bs| - 1]), bs[|bs| - 1])
  }

  function BuildOrdinaryMap<V>(cm: ConcurrentMap<V>): map<int, V>
  {
    Union(cm.buckets)
  }

  /** A key is in the union of sharded buckets exactly when it is in its own
      bucket, with that bucket's value. */
  lemma {:induction false} UnionOfShards<V>(bs: seq<map<int, V>>, count: nat)
    requires count > 0 && |bs| <= count && Sharded(bs, count)
    ensures forall k :: k in Union(bs) <==> BucketIndex(k, count) < |bs| && k in bs[BucketIndex(k, count)]
    ensures forall k :: k in Union(bs) ==> Union(bs)[k] == bs[BucketIndex(k, count)][k]
    decreases |bs|
  {
    if |bs| > 0 {
      var front := bs[..|bs| - 1];
      assert Sharded(front, count);
      UnionOfShards(front, count);
    }
  }

  /** The buckets never share a key. */
  lemma BucketsDisjoint<V>(cm: ConcurrentMap<V>)
    requires Valid(cm)
    ensures forall i, j :: 0 <= i < j < |cm.buckets| ==> cm.buckets[i].Keys !! cm.buckets[j].Keys
  {
    forall i, j | 0 <= i < j < |cm.buckets|
      ensures cm.buckets[i].Keys !! cm.buckets[j].Keys
    {
      forall k | k in cm.buckets[i]
        ensures k !in cm.buckets[j]
      {
        assert BucketIndex(k, |cm.buckets|) == i;
      }
    }
  }

  /** BuildOrdinaryMap is the disjoint union of the buckets: every stored
      key and value is in it, and nothing else. */
  lemma BuildOrdinaryMapIsUnion<V>(cm: ConcurrentMap<V>)
    requires Valid(cm)
    ensures forall k :: k in BuildOrdinaryMap(cm) <==> exists i :: 0 <= i < |cm.buckets| && k in cm.buckets[i]
    ensures forall i, k :: 0 <= i < |cm.buckets| && k in cm.buckets[i] ==> BuildOrdinaryMap(cm)[k] == cm.buckets[i][k]
  {
    UnionOfShards(cm.buckets, |cm.buckets|);
  }

  /** Update on the sharded map is the same update on the ordinary map. */
  lemma UpdateAgrees<V>(cm: ConcurrentMap<V>, key: int, zero: V, f: V -> V)
    requires Valid(cm)
    ensures BuildOrdinaryMap(Update(cm, key, zero, f))
            == BuildOrdinaryMap(cm)[key := f(Get(BuildOrdinaryMap(cm), key, zero))]
  {
    var n := |cm.buckets|;
    var r := Update(cm, key, zero, f);
    var i := BucketIndex(key, n);
    UnionOfShards(cm.buckets, n);
    UnionOfShards(r.buckets, n);
    var a := BuildOrdinaryMap(r);
    var m := BuildOrdinaryMap(cm);
    var b := m[key := f(Get(m, key, zero))];
    assert Get(m, key, zero) == Get(cm.buckets[i], key, zero);
    forall k
      ensures k in a <==> k in b
      ensures k in a ==> a[k] == b[k]
    {
      if BucketIndex(k, n) != i {
        assert r.buckets[BucketIndex(k, n)] == cm.buckets[BucketIndex(k, n)];
      }
    }
    assert a.Keys == b.Keys;
  }

  /** Erase on the sharded map is the same erase on the ordinary map. */
  lemma EraseAgrees<V>(cm: ConcurrentMap<V>, key: int)
    requires Valid(cm)
    ensures BuildOrdinaryMap(Erase(cm, key)) == BuildOrdinaryMap(cm) - {key}
  {
    var n := |cm.buckets|;
    var r := Erase(cm, key);
    var i := BucketIndex(key, n);
    UnionOfShards(cm.buckets, n);
    UnionOfShards(r.buckets, n);
    var a := BuildOrdinaryMap(r);
    var b := BuildOrdinaryMap(cm) - {key};
    forall k
      ensures k in a <==> k in b
      ensures k in a ==> a[k] == b[k]
    {
      if BucketIndex(k, n) != i {
        assert r.buckets[BucketIndex(k, n)] == cm.buckets[BucketIndex(k, n)];
      }
    }
    assert a.Keys == b.Keys;
  }

  /** The two things FindAllDocuments does to its relevance map. */
  datatype MapOp = AddTo(key: int, delta: real) | EraseKey(key: int)

  /** One operation on one ordinary std::map<int, double>. */
  function StepPlain(m: map<int, real>, op: MapOp): map<int, real>
  {
    match op
    case AddTo(k, d) => Bump(m, k, d)
    case EraseKey(k) => m - {k}
  }

  /** The operations, in order, on one ordinary map. */
  function ApplyPlain(m: map<int, real>, ops: seq<MapOp>): map<int, real>
    decreases |ops|
  {
    if |ops| == 0 then m else ApplyPlain(StepPlain(m, ops[0]), ops[1..])
  }

  /** One operation on a ConcurrentMap<int, double>: `cm[k].ref_to_value += d`
      or `cm.erase(k)`. */
  function StepSharded(cm: ConcurrentMap<real>, op: MapOp): (r: ConcurrentMap<real>)
    requires |cm.buckets| > 0
    ensures |r.buckets| == |cm.buckets|
    ensures Valid(cm) ==> Valid(r)
  {
    match op
    case AddTo(k, d) => Update(cm, k, 0.0, x => x + d)
    case EraseKey(k) => Erase(cm, k)
  }

  /** The operations, in order, on a ConcurrentMap<int, double>. */
  function ApplySharded(cm: ConcurrentMap<real>, ops: seq<MapOp>): (r: ConcurrentMap<real>)
    requires |cm.buckets| > 0
    ensures |r.buckets| == |cm.buckets|
    ensures Valid(cm) ==> Valid(r)
    decreases |ops|
  {
    if |ops| == 0 then cm else ApplySharded(StepSharded(cm, ops[0]), ops[1..])
  }

  lemma StepAgrees(cm: ConcurrentMap<real>, op: MapOp)
    requires Valid(cm)
    ensures BuildOrdinaryMap(StepSharded(cm, op)) == StepPlain(BuildOrdinaryMap(cm), op)
  {
    match op
    case AddTo(k, d) => UpdateAgrees(cm, k, 0.0, x => x + d);
    case EraseKey(k) => EraseAgrees(cm, k);
  }

  /** Any sequence of `+=` accesses and erases followed by BuildOrdinaryMap
      gives what the same sequence gives on one ordinary map. */
  lemma {:induction false} ShardedAgrees(cm: ConcurrentMap<real>, ops: seq<MapOp>)
    requires Valid(cm)
    ensures BuildOrdinaryMap(ApplySharded(cm, ops)) == ApplyPlain(BuildOrdinaryMap(cm), ops)
    decreases |ops|
  {
    if |ops| > 0 {
      StepAgrees(cm, ops[0]);
      ShardedAgrees(StepSharded(cm, ops[0]), ops[1..]);
    }
  }
}

=== FILE: document_types.dfy ===
/** The records the search server hands out and stores. */
module DocumentTypes {

  datatype DocumentStatus = Actual | Irrelevant | Banned | Removed

  /** A query result: id, TF-IDF relevance and the stored average rating. */
  datatype Document = Document(id: int, relevance: real, rating: int)

  /** The execution-policy tag (std::execution::seq or std::execution::par)
      passed to the overloads that have both variants. */
  datatype ExecutionPolicy = Sequenced | Parallel
}

=== FILE: lex.dfy ===
/** The ordering of std::string used by std::set<std::string> and
    std::map<std::string, _>: lexicographic comparison of character codes,
    a proper prefix ordered first. Query word sets are kept as strictly
    increasing sequences under this order, which is exactly the order the
    source iterates them in. */
module Lex {

  predicate Less(a: string, b: string)
    decreases |a|
  {
    if |b| == 0 then false
    else if |a| == 0 then true
    else if a[0] != b[0] then a[0] < b[0]
    else Less(a[1..], b[1..])
  }

  lemma {:induction false} Irreflexive(a: string)
    ensures !Less(a, a)
    decreases |a|
  {
    if |a| > 0 {
      Irreflexive(a[1..]);
    }
  }

  lemma {:induction false} Transitive(a: string, b: string, c: string)
    requires Less(a, b) && Less(b, c)
    ensures Less(a, c)
    decreases |a|
  {
    if |a| > 0 && a[0] == b[0] && b[0] == c[0] {
      Transitive(a[1..], b[1..], c[1..]);
    }
  }

  lemma {:induction false} Total(a: string, b: string)
    ensures a == b || Less(a, b) || Less(b, a)
    decreases |a|
  {
    if |a| > 0 && |b| > 0 && a[0] == b[0] {
      Total(a[1..], b[1..]);
      if a[1..] == b[1..] {
        assert a == [a[0]] + a[1..] && b == [b[0]] + b[1..];
      }
    }
  }

  lemma Asymmetric(a: string, b: string)
    requires Less(a, b)
    ensures !Less(b, a)
  {
    if Less(b, a) {
      Transitive(a, b, a);
      Irreflexive(a);
    }
  }

  /** Strictly increasing: sorted and free of duplicates, like a std::set. */
  predicate Increasing(xs: seq<string>)
  {
    forall i, j :: 0 <= i < j < |xs| ==> Less(xs[i], xs[j])
  }

  /** std::set<std::string>::insert: adds `w` at its place, or leaves the
      set alone when `w` is already present. */
  function Insert(xs: seq<string>, w: string): (r: seq<string>)
    requires Increasing(xs)
    ensures Increasing(r)
    ensures forall x :: x in r <==> x in xs || x == w
    decreases |xs|
  {
    if |xs| == 0 then [w]
    else if xs[0] == w then xs
    else if Less(w, xs[0]) then
      assert forall i :: 0 <= i < |xs| ==> Less(w, xs[i]) by {
        forall i | 0 <= i < |xs| ensures Less(w, xs[i]) {
          if i > 0 { Transitive(w, xs[0], xs[i]); }
        }
      }
      [w] + xs
    else
      Total(w, xs[0]);
      var rest := Insert(xs[1..], w);
      assert forall x :: x in rest ==> Less(xs[0], x) by {
        forall x | x in rest ensures Less(xs[0], x) {
          if x != w {
            var i :| 0 <= i < |xs[1..]| && xs[1..][i] == x;
            assert xs[i + 1] == x;
          }
        }
      }
      [xs[0]] + rest
  }
}

=== FILE: paginator.dfy ===
/** Paginator: cuts a range of `n` items into consecutive pages of
    `pageSize` items, the last page taking what is left. Iterators are
    modelled as positions 0..n of the underlying container. */
module Pagination {
  import opened Collections

  /** IteratorRange: the half-open range of positions [first, last). */
  datatype IteratorRange = IteratorRange(first: nat, last: nat)

  function Size(page: IteratorRange): int
  {
    page.last - page.first
  }

  /** The pages follow one another with no gap and no overlap, from position
      0 up to `end`. */
  predicate Contiguous(pages: seq<IteratorRange>, end: nat)
  {
    && (|pages| == 0 ==> end == 0)
    && (|pages| > 0 ==> pages[0].first == 0 && pages[|pages| - 1].last == end)
    && (forall k :: 0 < k < |pages| ==> pages[k].first == pages[k - 1].last)
  }

  /** Every page but the last holds exactly `pageSize` items; the last holds
      between 1 and `pageSize`. */
  predicate FullExceptLast(pages: seq<IteratorRange>, pageSize: nat)
  {
    && (forall k :: 0 <= k < |pages| - 1 ==> Size(pages[k]) == pageSize)
    && (|pages| > 0 ==> 0 < Size(pages[|pages| - 1]) <= pageSize)
  }

  /** The constructor's loop: a page of `pageSize` while more than
      `pageSize` items remain, then one last page up to the end. */
  method Paginate(n: nat, pageSize: nat) returns (pages: seq<IteratorRange>)
    requires pageSize > 0
    ensures Contiguous(pages, n)
    ensures FullExceptLast(pages, pageSize)
    ensures |pages| * pageSize - pageSize < n <= |pages| * pageSize
  {
    pages := [];
    var i := 0;
    while i != n
      invariant 0 <= i < n || i == n == 0
      invariant i == |pages| * pageSize
      invariant Contiguous(pages, i)
      invariant forall k :: 0 <= k < |pages| ==> Size(pages[k]) == pageSize
      decreases n - i
    {
      MultiplySuccessor(|pages|, pageSize);
      if n - i > pageSize {
        AppendPage(pages, IteratorRange(i, i + pageSize), i);
        pages := pages + [IteratorRange(i, i + pageSize)];
        i := i + pageSize;
      } else {
        AppendPage(pages, IteratorRange(i, n), i);
        pages := pages + [IteratorRange(i, n)];
        return;
      }
    }
  }

  lemma MultiplySuccessor(k: nat, p: nat)
    ensures (k + 1) * p == k * p + p
  {
  }

  /** A page starting where the pages end extends them. */
  lemma AppendPage(pages: seq<IteratorRange>, page: IteratorRange, end: nat)
    requires Contiguous(pages, end) && page.first == end
    ensures Contiguous(pages + [page], page.last)
    ensures forall k :: 0 <= k < |pages| ==> (pages + [page])[k] == pages[k]
  {
  }

  /** Paginate(c, page_size): the pages of a container, as the items each
      page ranges over. */
  method PaginateItems<T>(items: seq<T>, pageSize: nat) returns (r: seq<seq<T>>)
    requires pageSize > 0
    ensures Flatten(r) == items
    ensures forall k :: 0 <= k < |r| - 1 ==> |r[k]| == pageSize
    ensures |r| > 0 ==> 0 < |r[|r| - 1]| <= pageSize
    ensures |r| == 0 <==> |items| == 0
  {
    var pages := Paginate(|items|, pageSize);
    LastsBounded(pages, |items|);
    r := Contents(items, pages);
    PagesCoverItems(items, pages);
  }

  /** The items of each page, in page order. */
  function Contents<T>(items: seq<T>, pages: seq<IteratorRange>): (r: seq<seq<T>>)
    requires forall k :: 0 <= k < |pages| ==> pages[k].first <= pages[k].last <= |items|
    ensures |r| == |pages|
    ensures forall k :: 0 <= k < |pages| ==> r[k] == items[pages[k].first..pages[k].last]
  {
    seq(|pages|, k requires 0 <= k < |pages| => items[pages[k].first..pages[k].last])
  }

  /** Reading the pages one after another gives back the container. */
  lemma {:induction false} PagesCoverItems<T>(items: seq<T>, pages: seq<IteratorRange>)
    requires Contiguous(pages, |items|)
    requires forall k :: 0 <= k < |pages| ==> pages[k].first <= pages[k].last <= |items|
    ensures Flatten(Contents(items, pages)) == items
  {
    var c := Contents(items, pages);
    if |pages| > 0 {
      PrefixCover(items, pages, |pages|);
      assert c[..|pages|] == c;
      assert items[..|items|] == items;
    } else {
      assert c == [];
    }
  }

  lemma {:induction false} PrefixCover<T>(items: seq<T>, pages: seq<IteratorRange>, m: nat)
    requires Contiguous(pages, |items|)
    requires forall k :: 0 <= k < |pages| ==> pages[k].first <= pages[k].last
    requires 0 < m <= |pages|
    ensures forall k :: 0 <= k < |pages| ==> pages[k].last <= |items|
    ensures Flatten(Contents(items, pages)[..m]) == items[..pages[m - 1].last]
    decreases m
  {
    LastsBounded(pages, |items|);
    var c := Contents(items, pages);
    if m == 1 {
      assert c[..1] == [] + [c[0]];
      FlattenAppend([], c[0]);
    } else {
      PrefixCover(items, pages, m - 1);
      assert c[..m] == c[..m - 1] + [c[m - 1]];
      FlattenAppend(c[..m - 1], c[m - 1]);
      assert items[..pages[m - 1].last] == items[..pages[m - 2].last] + items[pages[m - 1].first..pages[m - 1].last];
    }
  }

  lemma LastsBounded(pages: seq<IteratorRange>, end: nat)
    requires Contiguous(pages, end)
    requires forall k :: 0 <= k < |pages| ==> pages[k].first <= pages[k].last
    ensures forall k :: 0 <= k < |pages| ==> pages[k].last <= end
  {
    forall k | 0 <= k < |pages|
      ensures pages[k].last <= end
    {
      var j := k;
      while j < |pages| - 1
        invariant k <= j < |pages|
        invariant pages[k].last <= pages[j].last
        decreases |pages| - j
      {
        j := j + 1;
      }
    }
  }
}

=== FILE: process_queries.dfy ===
/** ProcessQueries: the default FindTopDocuments for every query of a
    batch, kept in query order, and the joined variant that concatenates
    the per-query answers. */
module BatchQueries {
  import opened Results
  import opened Collections
  import opened DocumentTypes
  import opened SearchServer
  import opened Relevance
  import opened Search

  /** All the answers when every one succeeded, else the first failure in
      query order. */
  function Collect(answers: seq<Result<seq<Document>>>): (r: Result<seq<seq<Document>>>)
    ensures r.Err? <==> exists i :: 0 <= i < |answers| && answers[i].Err?
    ensures r.Ok? ==> |r.value| == |answers|
    ensures r.Ok? ==> forall i :: 0 <= i < |answers| ==> answers[i] == Ok(r.value[i])
    decreases |answers|
  {
    if |answers| == 0 then Ok([])
    else if answers[0].Err? then Err(answers[0].error)
    else
      var rest := Collect(answers[1..]);
      assert forall i :: 0 < i < |answers| ==> answers[i] == answers[1..][i - 1];
      if rest.Err? then
        var j :| 0 <= j < |answers[1..]| && answers[1..][j].Err?;
        assert answers[j + 1].Err?;
        Err(rest.error)
      else Ok([answers[0].value] + rest.value)
  }

  /** The answer to each query, one per query. */
  function Answers(s: Server, queries: seq<string>, idf: Idf): (r: seq<Result<seq<Document>>>)
    ensures |r| == |queries|
    ensures forall i :: 0 <= i < |queries| ==> r[i] == FindTopDocumentsActual(Sequenced, s, queries[i], idf)
  {
    seq(|queries|, i requires 0 <= i < |queries| => FindTopDocumentsActual(Sequenced, s, queries[i], idf))
  }

  /** ProcessQueries: one answer per query, at the query's index. An
      exception in any query escapes std::transform under
      std::execution::par, which calls std::terminate. */
  function ProcessQueries(s: Server, queries: seq<string>, idf: Idf): (r: Result<seq<seq<Document>>>)
    ensures r.Err? <==> exists i :: 0 <= i < |queries| && FindTopDocumentsActual(Sequenced, s, queries[i], idf).Err?
    ensures r.Err? ==> r.error == Terminated
    ensures r.Ok? ==> |r.value| == |queries|
    ensures r.Ok? ==> forall i :: 0 <= i < |queries| ==> FindTopDocumentsActual(Sequenced, s, queries[i], idf) == Ok(r.value[i])
  {
    var collected := Collect(Answers(s, queries, idf));
    if collected.Err? then Err(Terminated) else collected
  }

  /** Every per-query answer holds at most five documents. */
  lemma ProcessQueriesBounded(s: Server, queries: seq<string>, idf: Idf)
    requires ProcessQueries(s, queries, idf).Ok?
    ensures forall i :: 0 <= i < |queries| ==> |ProcessQueries(s, queries, idf).value[i]| <= MaxResultDocumentCount
  {
    var r := ProcessQueries(s, queries, idf).value;
    forall i | 0 <= i < |queries|
      ensures |r[i]| <= MaxResultDocumentCount
    {
      assert FindTopDocumentsActual(Sequenced, s, queries[i], idf) == Ok(r[i]);
    }
  }

  /** ProcessQueriesJoined: the per-query answers concatenated in query
      order. */
  function ProcessQueriesJoined(s: Server, queries: seq<string>, idf: Idf): (r: Result<seq<Document>>)
    ensures r.Ok? <==> ProcessQueries(s, queries, idf).Ok?
    ensures r.Ok? ==> r.value == Flatten(ProcessQueries(s, queries, idf).value)
    ensures r.Ok? ==> |r.value| == TotalLength(ProcessQueries(s, queries, idf).value)
  {
    var per := ProcessQueries(s, queries, idf);
    if per.Err? then Err(per.error)
    else
      FlattenLength(per.value);
      Ok(Flatten(per.value))
  }

  /** The joined answer has at most five documents per query. */
  lemma {:induction false} TotalLengthBounded(xss: seq<seq<Document>>, bound: nat)
    requires forall i :: 0 <= i < |xss| ==> |xss[i]| <= bound
    ensures TotalLength(xss) <= bound * |xss|
    decreases |xss|
  {
    if |xss| > 0 {
      TotalLengthBounded(xss[1..], bound);
      assert bound * |xss| == bound + bound * |xss[1..]|;
    }
  }

  lemma ProcessQueriesJoinedBounded(s: Server, queries: seq<string>, idf: Idf)
    requires ProcessQueriesJoined(s, queries, idf).Ok?
    ensures |ProcessQueriesJoined(s, queries, idf).value| <= MaxResultDocumentCount * |queries|
  {
    ProcessQueriesBounded(s, queries, idf);
    TotalLengthBounded(ProcessQueries(s, queries, idf).value, MaxResultDocumentCount);
  }
}

=== FILE: query_parsing.dfy ===
/** Query parsing: a raw query is cut into pieces, every piece is checked
    for control characters, a leading '-' makes a minus word, and stop
    words are dropped after the '-' is stripped. The plus and minus words
    are kept as std::set<std::string_view>, i.e. strictly increasing
    sequences. */
module QueryParsing {
  import opened Results
  import opened Collections
  import opened StringProcessing
  import opened SearchServer
  import Lex

  datatype QueryWord = QueryWord(data: string, isMinus: bool, isStop: bool)

  datatype Query = Query(plusWords: seq<string>, minusWords: seq<string>)

  /** Both word lists are in std::set order. */
  predicate WellFormed(q: Query)
  {
    Lex.Increasing(q.plusWords) && Lex.Increasing(q.minusWords)
  }

  const EmptyQuery := Query([], [])

  /** A piece that starts with '-' and is followed by nothing or another '-'. */
  predicate MalformedMinus(text: string)
  {
    |text| > 0 && text[0] == '-' && (|text| == 1 || text[1] == '-')
  }

  /** A piece that makes the parser throw. */
  predicate Rejected(piece: string)
  {
    !IsValidWord(piece) || MalformedMinus(piece)
  }

  /** ParseQueryWord on a non-empty piece: strip one leading '-', then
      reject an empty remainder or one that starts with '-' again. */
  function ParseQueryWord(s: Server, text: string): (r: Result<QueryWord>)
    requires |text| > 0
    ensures r.Err? <==> MalformedMinus(text)
    ensures r.Err? ==> r.error == InvalidWord
    ensures r.Ok? ==> r.value.isMinus <==> text[0] == '-'
    ensures r.Ok? ==> text == (if r.value.isMinus then ['-'] else []) + r.value.data
    ensures r.Ok? ==> |r.value.data| > 0 && r.value.data[0] != '-'
    ensures r.Ok? ==> (r.value.isStop <==> r.value.data in s.stopWords)
  {
    var isMinus := text[0] == '-';
    var data := if isMinus then text[1..] else text;
    if |data| == 0 || data[0] == '-' then Err(InvalidWord)
    else
      assert isMinus ==> text == ['-'] + data;
      Ok(QueryWord(data, isMinus, IsStopWord(s, data)))
  }

  /** A plus word of the pieces: a non-empty piece without a leading '-'
      that is not a stop word. */
  predicate PlusWordOf(s: Server, pieces: seq<string>, x: string)
  {
    x in pieces && |x| > 0 && x[0] != '-' && x !in s.stopWords
  }

  /** A minus word of the pieces: `x` behind a '-' piece, not a stop word. */
  predicate MinusWordOf(s: Server, pieces: seq<string>, x: string)
  {
    ['-'] + x in pieces && x !in s.stopWords
  }

  /** The parse loop over the pieces, skipping empty ones. */
  function ParsePieces(s: Server, pieces: seq<string>, q: Query): (r: Result<Query>)
    requires WellFormed(q)
    ensures r.Err? <==> exists p :: p in pieces && Rejected(p)
    ensures r.Err? ==> r.error == InvalidWord
    ensures r.Ok? ==> WellFormed(r.value)
    ensures r.Ok? ==> forall x :: x in r.value.plusWords <==> x in q.plusWords || PlusWordOf(s, pieces, x)
    ensures r.Ok? ==> forall x :: x in r.value.minusWords <==> x in q.minusWords || MinusWordOf(s, pieces, x)
    decreases |pieces|
  {
    if |pieces| == 0 then Ok(q)
    else
      var p := pieces[0];
      assert pieces == [p] + pieces[1..];
      if !IsValidWord(p) then
        assert Rejected(p) && p in pieces;
        Err(InvalidWord)
      else if |p| == 0 then ParsePieces(s, pieces[1..], q)
      else
        match ParseQueryWord(s, p)
        case Err(e) => Err(e)
        case Ok(w) =>
          if w.isStop then ParsePieces(s, pieces[1..], q)
          else if w.isMinus then ParsePieces(s, pieces[1..], q.(minusWords := Lex.Insert(q.minusWords, w.data)))
          else ParsePieces(s, pieces[1..], q.(plusWords := Lex.Insert(q.plusWords, w.data)))
  }

  /** ParseQuery over the pieces of the borrowing splitter, with empty
      pieces skipped (the as-written parser reads the first character of
      every piece, see AsWritten.ParseQueryAsWritten). */
  function ParseQuery(s: Server, text: string): (r: Result<Query>)
    ensures r.Err? <==> exists w :: w in SplitIntoWords(text) && Rejected(w)
    ensures r.Err? ==> r.error == InvalidWord
    ensures r.Ok? ==> WellFormed(r.value)
    ensures r.Ok? ==> forall x :: x in r.value.plusWords <==> PlusWordOf(s, SplitIntoWords(text), x)
    ensures r.Ok? ==> forall x :: x in r.value.minusWords <==> MinusWordOf(s, SplitIntoWords(text), x)
  {
    var pieces := SplitIntoWordsView(text);
    SplitIntoWordsIsNonEmptyView(text);
    NonEmptyMembers(pieces);
    EmptyPiecesIrrelevant(s, pieces, SplitIntoWords(text));
    ParsePieces(s, pieces, EmptyQuery)
  }

  /** Empty pieces neither throw nor contribute a word, so the pieces and
      their non-empty members parse alike. */
  lemma EmptyPiecesIrrelevant(s: Server, pieces: seq<string>, words: seq<string>)
    requires forall x :: x in words <==> x in pieces && |x| > 0
    ensures (exists p :: p in pieces && Rejected(p)) <==> (exists w :: w in words && Rejected(w))
    ensures forall x :: PlusWordOf(s, pieces, x) <==> PlusWordOf(s, words, x)
    ensures forall x :: MinusWordOf(s, pieces, x) <==> MinusWordOf(s, words, x)
  {
    if exists p :: p in pieces && Rejected(p) {
      var p :| p in pieces && Rejected(p);
      assert p in words;
    }
  }
}

=== FILE: relevance.dfy ===
/** The relevance map of FindAllDocuments as a sequence of map operations:
    one `+=` per (plus word, selected document) pair, then one erase per
    (minus word, document) pair. The same sequence is applied to an
    ordinary map by the sequential overload and to a ConcurrentMap by the
    parallel one. */
module Relevance {
  import opened Collections
  import opened DocumentTypes
  import opened SearchServer
  import opened ConcurrentMaps

  /** The caller's filter on (id, status, rating). */
  type DocumentPredicate = (int, DocumentStatus, int) -> bool

  /** The inverse document frequency as a function of the document count
      and the posting-list size: ln(count / size) in the source. */
  type Idf = (int, int) -> real

  /** The document is stored and the filter accepts its metadata. */
  predicate Selected(s: Server, pred: DocumentPredicate, d: int)
  {
    d in s.documents && pred(d, s.documents[d].status, s.documents[d].rating)
  }

  /** TF times IDF of word `w` in document `d`. */
  function Score(s: Server, w: string, d: int, idf: Idf): real
    requires w in s.wordToDocumentFreqs && d in s.wordToDocumentFreqs[w]
  {
    s.wordToDocumentFreqs[w][d] * idf(|s.documents|, |s.wordToDocumentFreqs[w]|)
  }

  /** The reference relevance: the sum of TF-IDF over the plus words
      indexed for `d`. */
  function TfIdf(s: Server, words: seq<string>, d: int, idf: Idf): real
    decreases |words|
  {
    if |words| == 0 then 0.0
    else
      var w := words[0];
      (if w in s.wordToDocumentFreqs && d in s.wordToDocumentFreqs[w] then Score(s, w, d, idf) else 0.0)
      + TfIdf(s, words[1..], d, idf)
  }

  // ---------------------------------------------------------------- building the operations

  /** The inner loop over one posting list, visiting `ids` in order. */
  function PostingOps(s: Server, w: string, ids: seq<int>, pred: DocumentPredicate, idf: Idf): seq<MapOp>
    requires w in s.wordToDocumentFreqs
    requires forall d :: d in ids ==> d in s.wordToDocumentFreqs[w]
    decreases |ids|
  {
    if |ids| == 0 then []
    else
      var d := ids[0];
      (if Selected(s, pred, d) then [AddTo(d, Score(s, w, d, idf))] else [])
      + PostingOps(s, w, ids[1..], pred, idf)
  }

  /** The plus-word loop: words absent from the index are skipped. */
  function PlusOps(s: Server, words: seq<string>, pred: DocumentPredicate, idf: Idf): seq<MapOp>
    decreases |words|
  {
    if |words| == 0 then []
    else
      var w := words[0];
      (if w in s.wordToDocumentFreqs then PostingOps(s, w, Ascending(s.wordToDocumentFreqs[w].Keys), pred, idf) else [])
      + PlusOps(s, words[1..], pred, idf)
  }

  function EraseOps(ids: seq<int>): seq<MapOp>
    decreases |ids|
  {
    if |ids| == 0 then [] else [EraseKey(ids[0])] + EraseOps(ids[1..])
  }

  /** The minus-word loop: every listed id is erased, whatever the filter. */
  function MinusOps(s: Server, words: seq<string>): seq<MapOp>
    decreases |words|
  {
    if |words| == 0 then []
    else
      var w := words[0];
      (if w in s.wordToDocumentFreqs then EraseOps(Ascending(s.wordToDocumentFreqs[w].Keys)) else [])
      + MinusOps(s, words[1..])
  }

  // ---------------------------------------------------------------- the operations' effect

  predicate AddsOnly(ops: seq<MapOp>)
  {
    forall i :: 0 <= i < |ops| ==> ops[i].AddTo?
  }

  /** The keys `ops` adds to. */
  function AddedKeys(ops: seq<MapOp>): set<int>
    decreases |ops|
  {
    if |ops| == 0 then {}
    else (if ops[0].AddTo? then {ops[0].key} else {}) + AddedKeys(ops[1..])
  }

  /** The total added to key `k`. */
  function Delta(ops: seq<MapOp>, k: int): real
    decreases |ops|
  {
    if |ops| == 0 then 0.0
    else (if ops[0].AddTo? && ops[0].key == k then ops[0].delta else 0.0) + Delta(ops[1..], k)
  }

  /** The keys `ops` erases. */
  function ErasedKeys(ops: seq<MapOp>): set<int>
    decreases |ops|
  {
    if |ops| == 0 then {}
    else (if ops[0].EraseKey? then {ops[0].key} else {}) + ErasedKeys(ops[1..])
  }

  lemma {:induction false} ApplyAppend(m: map<int, real>, a: seq<MapOp>, b: seq<MapOp>)
    ensures ApplyPlain(m, a + b) == ApplyPlain(ApplyPlain(m, a), b)
    decreases |a|
  {
    if |a| > 0 {
      assert (a + b)[1..] == a[1..] + b;
      ApplyAppend(StepPlain(m, a[0]), a[1..], b);
    } else {
      assert a + b == b;
    }
  }

  lemma {:induction false} DeltaAppend(a: seq<MapOp>, b: seq<MapOp>, k: int)
    ensures Delta(a + b, k) == Delta(a, k) + Delta(b, k)
    ensures AddedKeys(a + b) == AddedKeys(a) + AddedKeys(b)
    ensures ErasedKeys(a + b) == ErasedKeys(a) + ErasedKeys(b)
    decreases |a|
  {
    if |a| > 0 {
      assert (a + b)[1..] == a[1..] + b;
      DeltaAppend(a[1..], b, k);
    } else {
      assert a + b == b;
    }
  }

  /** `+=` operations: a key ends present iff it was present or is added
      to, with its old value (0.0 if absent) plus everything added. */
  lemma {:induction false} ApplyAdds(m: map<int, real>, ops: seq<MapOp>)
    requires AddsOnly(ops)
    ensures forall k :: k in ApplyPlain(m, ops) <==> k in m || k in AddedKeys(ops)
    ensures forall k :: k in ApplyPlain(m, ops) ==> ApplyPlain(m, ops)[k] == Get(m, k, 0.0) + Delta(ops, k)
    decreases |ops|
  {
    if |ops| > 0 {
      var m1 := StepPlain(m, ops[0]);
      ApplyAdds(m1, ops[1..]);
    }
  }

  /** Erase operations remove exactly their keys. */
  lemma {:induction false} ApplyErases(m: map<int, real>, ops: seq<MapOp>)
    requires ErasesOnly(ops)
    ensures ApplyPlain(m, ops) == m - ErasedKeys(ops)
    decreases |ops|
  {
    if |ops| > 0 {
      ApplyErases(m - {ops[0].key}, ops[1..]);
      assert m - {ops[0].key} - ErasedKeys(ops[1..]) == m - ErasedKeys(ops);
    }
  }

  lemma AddsOnlyAppend(a: seq<MapOp>, b: seq<MapOp>)
    requires AddsOnly(a) && AddsOnly(b)
    ensures AddsOnly(a + b)
  {
    forall i | 0 <= i < |a + b|
      ensures (a + b)[i].AddTo?
    {
      if i >= |a| {
        assert (a + b)[i] == b[i - |a|];
      }
    }
  }

  /** One posting list, visited in ascending order, adds the score of
      every selected document once. */
  lemma {:induction false} PostingOpsEffect(s: Server, w: string, ids: seq<int>, pred: DocumentPredicate, idf: Idf)
    requires w in s.wordToDocumentFreqs
    requires forall d :: d in ids ==> d in s.wordToDocumentFreqs[w]
    requires StrictlyIncreasing(ids)
    ensures AddsOnly(PostingOps(s, w, ids, pred, idf))
    ensures forall k :: k in AddedKeys(PostingOps(s, w, ids, pred, idf)) <==> k in ids && Selected(s, pred, k)
    ensures forall k :: Delta(PostingOps(s, w, ids, pred, idf), k)
                        == if k in ids && Selected(s, pred, k) then Score(s, w, k, idf) else 0.0
    decreases |ids|
  {
    if |ids| > 0 {
      var d := ids[0];
      var head: seq<MapOp> := if Selected(s, pred, d) then [AddTo(d, Score(s, w, d, idf))] else [];
      var rest := PostingOps(s, w, ids[1..], pred, idf);
      PostingOpsEffect(s, w, ids[1..], pred, idf);
      AddsOnlyAppend(head, rest);
      assert d !in ids[1..];
      assert ids == [d] + ids[1..];
      forall k
        ensures Delta(head + rest, k) == Delta(head, k) + Delta(rest, k)
        ensures AddedKeys(head + rest) == AddedKeys(head) + AddedKeys(rest)
      {
        DeltaAppend(head, rest, k);
      }
    }
  }

  /** Some word of `words` has `d` in its posting list. */
  predicate Indexed(s: Server, words: seq<string>, d: int)
  {
    exists w :: w in words && w in s.wordToDocumentFreqs && d in s.wordToDocumentFreqs[w]
  }

  lemma IndexedCons(s: Server, words: seq<string>, d: int)
    requires |words| > 0
    ensures Indexed(s, words, d) <==>
      (words[0] in s.wordToDocumentFreqs && d in s.wordToDocumentFreqs[words[0]]) || Indexed(s, words[1..], d)
  {
    assert words == [words[0]] + words[1..];
  }

  /** The plus-word loop only adds. */
  lemma {:induction false} PlusOpsAddsOnly(s: Server, words: seq<string>, pred: DocumentPredicate, idf: Idf)
    ensures AddsOnly(PlusOps(s, words, pred, idf))
    decreases |words|
  {
    if |words| > 0 {
      var w := words[0];
      var head := if w in s.wordToDocumentFreqs then PostingOps(s, w, Ascending(s.wordToDocumentFreqs[w].Keys), pred, idf) else [];
      PlusOpsAddsOnly(s, words[1..], pred, idf);
      if w in s.wordToDocumentFreqs {
        PostingOpsEffect(s, w, Ascending(s.wordToDocumentFreqs[w].Keys), pred, idf);
      }
      AddsOnlyAppend(head, PlusOps(s, words[1..], pred, idf));
    }
  }

  /** The plus-word loop adds to exactly the selected documents indexed
      under a plus word. */
  lemma {:induction false} PlusOpsAddedKeys(s: Server, words: seq<string>, pred: DocumentPredicate, idf: Idf)
    ensures forall k :: k in AddedKeys(PlusOps(s, words, pred, idf)) <==> Selected(s, pred, k) && Indexed(s, words, k)
    decreases |words|
  {
    if |words| > 0 {
      var w := words[0];
      var head := if w in s.wordToDocumentFreqs then PostingOps(s, w, Ascending(s.wordToDocumentFreqs[w].Keys), pred, idf) else [];
      var rest := PlusOps(s, words[1..], pred, idf);
      PlusOpsAddedKeys(s, words[1..], pred, idf);
      if w in s.wordToDocumentFreqs {
        PostingOpsEffect(s, w, Ascending(s.wordToDocumentFreqs[w].Keys), pred, idf);
      }
      DeltaAppend(head, rest, 0);
      forall k
        ensures k in AddedKeys(head + rest) <==> Selected(s, pred, k) && Indexed(s, words, k)
      {
        IndexedCons(s, words, k);
      }
    }
  }

  /** The plus-word loop adds, to every selected document, exactly its
      reference relevance. */
  lemma {:induction false} PlusOpsDelta(s: Server, words: seq<string>, pred: DocumentPredicate, idf: Idf)
    ensures forall k :: Selected(s, pred, k) ==> Delta(PlusOps(s, words, pred, idf), k) == TfIdf(s, words, k, idf)
    decreases |words|
  {
    if |words| > 0 {
      var w := words[0];
      var head := if w in s.wordToDocumentFreqs then PostingOps(s, w, Ascending(s.wordToDocumentFreqs[w].Keys), pred, idf) else [];
      var rest := PlusOps(s, words[1..], pred, idf);
      PlusOpsDelta(s, words[1..], pred, idf);
      if w in s.wordToDocumentFreqs {
        PostingOpsEffect(s, w, Ascending(s.wordToDocumentFreqs[w].Keys), pred, idf);
      }
      forall k | Selected(s, pred, k)
        ensures Delta(head + rest, k) == TfIdf(s, words, k, idf)
      {
        DeltaAppend(head, rest, k);
      }
    }
  }

  predicate ErasesOnly(ops: seq<MapOp>)
  {
    forall i :: 0 <= i < |ops| ==> ops[i].EraseKey?
  }

  lemma ErasesOnlyAppend(a: seq<MapOp>, b: seq<MapOp>)
    requires ErasesOnly(a) && ErasesOnly(b)
    ensures ErasesOnly(a + b)
  {
    forall i | 0 <= i < |a + b|
      ensures (a + b)[i].EraseKey?
    {
      if i >= |a| {
        assert (a + b)[i] == b[i - |a|];
      }
    }
  }

  lemma {:induction false} EraseOpsEffect(ids: seq<int>)
    ensures ErasesOnly(EraseOps(ids))
    ensures ErasedKeys(EraseOps(ids)) == set k | k in ids
    decreases |ids|
  {
    if |ids| > 0 {
      EraseOpsEffect(ids[1..]);
      var rest := EraseOps(ids[1..]);
      DeltaAppend([EraseKey(ids[0])], rest, 0);
      ErasesOnlyAppend([EraseKey(ids[0])], rest);
      assert ids == [ids[0]] + ids[1..];
    }
  }

  /** The minus-word loop only erases. */
  lemma {:induction false} MinusOpsErasesOnly(s: Server, words: seq<string>)
    ensures ErasesOnly(MinusOps(s, words))
    decreases |words|
  {
    if |words| > 0 {
      var w := words[0];
      var head := if w in s.wordToDocumentFreqs then EraseOps(Ascending(s.wordToDocumentFreqs[w].Keys)) else [];
      MinusOpsErasesOnly(s, words[1..]);
      if w in s.wordToDocumentFreqs {
        EraseOpsEffect(Ascending(s.wordToDocumentFreqs[w].Keys));
      }
      ErasesOnlyAppend(head, MinusOps(s, words[1..]));
    }
  }

  /** The minus-word loop erases every id indexed under a minus word, and
      nothing else. */
  lemma {:induction false} MinusOpsErasedKeys(s: Server, words: seq<string>)
    ensures forall k :: k in ErasedKeys(MinusOps(s, words)) <==> Indexed(s, words, k)
    decreases |words|
  {
    if |words| > 0 {
      var w := words[0];
      var head := if w in s.wordToDocumentFreqs then EraseOps(Ascending(s.wordToDocumentFreqs[w].Keys)) else [];
      var rest := MinusOps(s, words[1..]);
      MinusOpsErasedKeys(s, words[1..]);
      if w in s.wordToDocumentFreqs {
        EraseOpsEffect(Ascending(s.wordToDocumentFreqs[w].Keys));
      }
      DeltaAppend(head, rest, 0);
      forall k
        ensures k in ErasedKeys(head + rest) <==> Indexed(s, words, k)
      {
        IndexedCons(s, words, k);
      }
    }
  }
}

=== FILE: remove_duplicates.dfy ===
/** RemoveDuplicates: of the documents that share the same set of words,
    keep the one with the smallest id and remove the others. Frequencies do
    not matter, only which words occur. */
module Duplicates {
  import opened Collections
  import opened SearchServer
  import opened ServerIndexing

  /** The set of distinct words of a document. */
  function WordSet(s: Server, id: int): set<string>
  {
    GetWordFrequencies(s, id).Keys
  }

  /** A live document whose word set an earlier (smaller) id already has. */
  predicate IsDuplicate(s: Server, id: int)
  {
    id in s.documentIds && exists e :: e in s.documentIds && e < id && WordSet(s, e) == WordSet(s, id)
  }

  /** The scan over ids in ascending order with the `try_emplace` map from
      word set to the first id that had it: an id whose word set is already
      a key is collected for removal. */
  function ScanDuplicates(s: Server, ids: seq<int>, seen: map<set<string>, int>): (r: seq<int>)
    requires StrictlyIncreasing(ids)
    ensures Collected(s, ids, seen, r)
    decreases |ids|
  {
    if |ids| == 0 then []
    else
      var id := ids[0];
      var words := WordSet(s, id);
      if words in seen then
        var r := ScanDuplicates(s, ids[1..], seen);
        CollectSeen(s, ids, seen, r);
        [id] + r
      else
        var r := ScanDuplicates(s, ids[1..], seen[words := id]);
        CollectFirst(s, ids, seen, r);
        r
  }

  /** `r` holds the ids of `ids` whose word set is already in `seen` or
      belongs to an earlier id of `ids`. */
  ghost predicate Collected(s: Server, ids: seq<int>, seen: map<set<string>, int>, r: seq<int>)
  {
    forall x :: x in r <==>
      x in ids && (WordSet(s, x) in seen || exists e :: e in ids && e < x && WordSet(s, e) == WordSet(s, x))
  }

  /** The first id's word set is already a key: the id is collected. */
  lemma CollectSeen(s: Server, ids: seq<int>, seen: map<set<string>, int>, r: seq<int>)
    requires StrictlyIncreasing(ids) && |ids| > 0
    requires WordSet(s, ids[0]) in seen
    requires Collected(s, ids[1..], seen, r)
    ensures Collected(s, ids, seen, [ids[0]] + r)
  {
    assert forall x :: x in ids <==> x == ids[0] || x in ids[1..];
    forall x | x in ids[1..] && exists e :: e in ids && e < x && WordSet(s, e) == WordSet(s, x)
      ensures WordSet(s, x) in seen || exists e :: e in ids[1..] && e < x && WordSet(s, e) == WordSet(s, x)
    {
      var e :| e in ids && e < x && WordSet(s, e) == WordSet(s, x);
      if e == ids[0] {
        assert WordSet(s, x) in seen;
      } else {
        assert e in ids[1..];
      }
    }
  }

  /** The first id's word set is new: it becomes a key, the id is kept, and
      every later id with the same set is collected. */
  lemma CollectFirst(s: Server, ids: seq<int>, seen: map<set<string>, int>, r: seq<int>)
    requires StrictlyIncreasing(ids) && |ids| > 0
    requires WordSet(s, ids[0]) !in seen
    requires Collected(s, ids[1..], seen[WordSet(s, ids[0]) := ids[0]], r)
    ensures Collected(s, ids, seen, r)
  {
    var id := ids[0];
    assert forall x :: x in ids <==> x == id || x in ids[1..];
    assert forall x :: x in ids[1..] ==> id < x;
    forall x
      ensures x in r <==>
        x in ids && (WordSet(s, x) in seen || exists e :: e in ids && e < x && WordSet(s, e) == WordSet(s, x))
    {
      if x in ids[1..] && WordSet(s, x) == WordSet(s, id) {
        assert id in ids && id < x;
      }
      if x in ids[1..] && exists e :: e in ids && e < x && WordSet(s, e) == WordSet(s, x) {
        var e :| e in ids && e < x && WordSet(s, e) == WordSet(s, x);
        if e != id {
          assert e in ids[1..];
        }
      }
      if x == id {
        assert id !in r;
      }
    }
  }

  /** The ids the first loop collects: exactly the duplicates. */
  function DuplicateIds(s: Server): (r: seq<int>)
    ensures forall x :: x in r <==> IsDuplicate(s, x)
  {
    ScanDuplicates(s, DocumentIdsInOrder(s), map[])
  }

  /** The second loop: RemoveDocument for each collected id, in order. */
  function RemoveEach(s: Server, ids: seq<int>): (r: Server)
    requires Valid(s)
    ensures Valid(r)
    ensures forall d :: d in r.documentIds <==> d in s.documentIds && d !in ids
    ensures forall d :: d in r.documentIds ==> r.documents[d] == s.documents[d]
    ensures forall d :: d !in ids ==> GetWordFrequencies(r, d) == GetWordFrequencies(s, d)
    decreases |ids|
  {
    if |ids| == 0 then s
    else
      var t := RemoveDocument(s, ids[0]);
      RemoveDocumentPreservesValid(s, ids[0]);
      assert forall x :: x in ids <==> x == ids[0] || x in ids[1..];
      RemoveEach(t, ids[1..])
  }

  function RemoveDuplicates(s: Server): (r: Server)
    requires Valid(s)
    ensures Valid(r)
    ensures forall d :: d in r.documentIds <==> d in s.documentIds && !IsDuplicate(s, d)
    ensures forall d :: d in r.documentIds ==> r.documents[d] == s.documents[d] && WordSet(r, d) == WordSet(s, d)
  {
    RemoveEach(s, DuplicateIds(s))
  }

  /** After the removal no two live documents share a word set. */
  lemma NoDuplicatesRemain(s: Server)
    requires Valid(s)
    ensures var r := RemoveDuplicates(s);
      forall a, b :: a in r.documentIds && b in r.documentIds && a < b ==> WordSet(r, a) != WordSet(r, b)
  {
    var r := RemoveDuplicates(s);
    forall a, b | a in r.documentIds && b in r.documentIds && a < b
      ensures WordSet(r, a) != WordSet(r, b)
    {
      assert !IsDuplicate(s, b);
    }
  }

  /** Every word set present before is still present: the smallest id that
      had it is kept. */
  lemma EveryWordSetKept(s: Server, id: int)
    requires Valid(s) && id in s.documentIds
    ensures exists k :: k in RemoveDuplicates(s).documentIds && k <= id && WordSet(s, k) == WordSet(s, id)
  {
    var same := set e | e in s.documentIds && WordSet(s, e) == WordSet(s, id);
    assert id in same;
    MinimumExists(same);
    var k :| k in same && forall x :: x in same ==> k <= x;
    forall e | e in s.documentIds && WordSet(s, e) == WordSet(s, k)
      ensures k <= e
    {
      assert e in same;
    }
  }

  /** A set described as `a` without `b`, where `b` lies inside `a`, has
      |a| - |b| elements. */
  lemma CardinalityOfDifference(c: set<int>, a: set<int>, b: set<int>)
    requires b <= a
    requires forall x :: x in c <==> x in a && x !in b
    ensures |c| == |a| - |b|
  {
    forall x
      ensures x in c <==> x in a - b
    {
    }
    assert c == a - b;
    assert a == c + b;
  }

  /** The count drops by the number of duplicates. */
  lemma RemoveDuplicatesCount(s: Server)
    requires Valid(s)
    ensures GetDocumentCount(RemoveDuplicates(s)) == GetDocumentCount(s) - |set x | x in s.documentIds && IsDuplicate(s, x)|
  {
    var r := RemoveDuplicates(s);
    var dups := set x | x in s.documentIds && IsDuplicate(s, x);
    forall x
      ensures x in r.documentIds <==> x in s.documentIds && x !in dups
    {
      assert x in dups <==> x in s.documentIds && IsDuplicate(s, x);
    }
    CardinalityOfDifference(r.documentIds, s.documentIds, dups);
    assert |r.documents| == |r.documents.Keys| == |r.documentIds|;
    assert |s.documents| == |s.documents.Keys| == |s.documentIds|;
  }
}

=== FILE: request_queue.dfy ===
/** RequestQueue: records, for the last 1440 find requests, whether each
    one found nothing. It holds a reference to the server, so every request
    searches the server as it is at that moment; the model passes that
    server to each request. The queue never changes the server. */
module RequestQueues {
  import opened Results
  import opened DocumentTypes
  import opened SearchServer
  import opened Relevance
  import opened Search

  /** sec_in_day_: the number of requests the window keeps. */
  const WindowSize: nat := 1440

  datatype QueryResult = QueryResult(empty: bool, timestamp: int)

  datatype RequestQueue = RequestQueue(
    requests: seq<QueryResult>,
    noResultCount: int,
    timestamp: int)

  /** The records whose search found nothing. */
  function CountEmpty(rs: seq<QueryResult>): (n: nat)
    ensures n <= |rs|
  {
    if |rs| == 0 then 0
    else CountEmpty(rs[..|rs| - 1]) + (if rs[|rs| - 1].empty then 1 else 0)
  }

  /** The records carry consecutive timestamps ending at `last`. */
  predicate Consecutive(rs: seq<QueryResult>, last: int)
  {
    forall i :: 0 <= i < |rs| ==> rs[i].timestamp == last - |rs| + 1 + i
  }

  /** What every reachable queue satisfies. */
  predicate Inv(q: RequestQueue)
  {
    && q.noResultCount == CountEmpty(q.requests)
    && |q.requests| <= WindowSize
    && |q.requests| <= q.timestamp
    && Consecutive(q.requests, q.timestamp)
  }

  /** The constructor: no records, counter 0, timestamp 0. The server
      reference it stores is the argument of each request here. */
  function NewRequestQueue(): (q: RequestQueue)
    ensures Inv(q)
    ensures GetNoResultRequests(q) == 0
  {
    RequestQueue([], 0, 0)
  }

  /** The last `WindowSize` records, or all of them when there are fewer. */
  function Window(rs: seq<QueryResult>): seq<QueryResult>
  {
    if |rs| > WindowSize then rs[|rs| - WindowSize..] else rs
  }

  lemma {:induction false} CountEmptyDropFirst(rs: seq<QueryResult>)
    requires |rs| > 0
    ensures CountEmpty(rs) == CountEmpty(rs[1..]) + (if rs[0].empty then 1 else 0)
    decreases |rs|
  {
    if |rs| > 1 {
      CountEmptyDropFirst(rs[..|rs| - 1]);
      assert rs[..|rs| - 1][1..] == rs[1..][..|rs[1..]| - 1];
      assert rs[..|rs| - 1][0] == rs[0];
    }
  }

  /** Pops `n` records from the front, decrementing the counter for each
      empty one. */
  function PopFront(q: RequestQueue, n: nat): (r: RequestQueue)
    requires n <= |q.requests|
    ensures r.requests == q.requests[n..]
    ensures r.noResultCount == q.noResultCount - (CountEmpty(q.requests) - CountEmpty(q.requests[n..]))
    ensures r.timestamp == q.timestamp
    decreases n
  {
    if n == 0 then q
    else
      CountEmptyDropFirst(q.requests);
      assert q.requests[1..][n - 1..] == q.requests[n..];
      var q1 := q.(requests := q.requests[1..],
                   noResultCount := if q.requests[0].empty then q.noResultCount - 1 else q.noResultCount);
      PopFront(q1, n - 1)
  }

  /** RemoveOldRequests: drop the records more than a window older than the
      newest. */
  function RemoveOldRequests(q: RequestQueue): (r: RequestQueue)
    requires Consecutive(q.requests, q.timestamp)
    ensures r.requests == Window(q.requests)
    ensures r.noResultCount == q.noResultCount - (CountEmpty(q.requests) - CountEmpty(Window(q.requests)))
    ensures r.timestamp == q.timestamp
  {
    if |q.requests| == 0 then q
    else
      var excess := (q.requests[|q.requests| - 1].timestamp - q.requests[0].timestamp + 1) - WindowSize;
      assert excess == |q.requests| - WindowSize;
      if excess <= 0 then q else PopFront(q, excess)
  }

  /** UpdateRequests: one more request, stamped with the next timestamp,
      then the window is trimmed. */
  function UpdateRequests(q: RequestQueue, isEmpty: bool): (r: RequestQueue)
    requires Inv(q)
    ensures Inv(r)
    ensures r.timestamp == q.timestamp + 1
    ensures r.requests == Window(q.requests + [QueryResult(isEmpty, q.timestamp + 1)])
  {
    var record := QueryResult(isEmpty, q.timestamp + 1);
    var rs := q.requests + [record];
    assert rs[..|rs| - 1] == q.requests;
    var q1 := q.(timestamp := q.timestamp + 1,
                 requests := rs,
                 noResultCount := if isEmpty then q.noResultCount + 1 else q.noResultCount);
    WindowConsecutive(rs, q.timestamp + 1);
    RemoveOldRequests(q1)
  }

  /** Trimming keeps the timestamps consecutive. */
  lemma WindowConsecutive(rs: seq<QueryResult>, last: int)
    requires Consecutive(rs, last)
    ensures Consecutive(Window(rs), last)
  {
    if |rs| > WindowSize {
      var w := Window(rs);
      forall i | 0 <= i < |w|
        ensures w[i].timestamp == last - |w| + 1 + i
      {
        assert w[i] == rs[i + |rs| - WindowSize];
      }
    }
  }

  function GetNoResultRequests(q: RequestQueue): (n: int)
    ensures Inv(q) ==> 0 <= n <= WindowSize
  {
    q.noResultCount
  }

  /** The outcome of AddFindRequest: the search result and the new queue. */
  datatype Answer = Answer(documents: Result<seq<Document>>, queue: RequestQueue)

  /** The queue after one search: a search that throws records nothing,
      any other records whether it came back empty. */
  function Record(q: RequestQueue, documents: Result<seq<Document>>): (r: RequestQueue)
    requires Inv(q)
    ensures Inv(r)
    ensures documents.Err? ==> r == q
  {
    if documents.Err? then q else UpdateRequests(q, |documents.value| == 0)
  }

  /** A search that succeeds appends exactly one record, stamped with the
      next timestamp, and the window keeps at most the last 1440. */
  lemma RecordAppendsOne(q: RequestQueue, documents: Result<seq<Document>>)
    requires Inv(q) && documents.Ok?
    ensures Record(q, documents).timestamp == q.timestamp + 1
    ensures Record(q, documents).requests == Window(q.requests + [QueryResult(|documents.value| == 0, q.timestamp + 1)])
  {
  }

  /** AddFindRequest with a filter: the search result unchanged, and the
      queue with one more record saying whether it was empty. A search that
      throws records nothing. */
  function AddFindRequest(q: RequestQueue, s: Server, rawQuery: string, pred: DocumentPredicate, idf: Idf): (r: Answer)
    requires Inv(q)
    ensures r.documents == FindTopDocuments(Sequenced, s, rawQuery, pred, idf)
    ensures r.queue == Record(q, r.documents)
  {
    var documents := FindTopDocuments(Sequenced, s, rawQuery, pred, idf);
    Answer(documents, Record(q, documents))
  }

  /** AddFindRequest with a status. */
  function AddFindRequestWithStatus(q: RequestQueue, s: Server, rawQuery: string, status: DocumentStatus, idf: Idf): (r: Answer)
    requires Inv(q)
    ensures r.documents == FindTopDocumentsWithStatus(Sequenced, s, rawQuery, status, idf)
    ensures r.queue == Record(q, r.documents)
  {
    AddFindRequest(q, s, rawQuery, StatusIs(status), idf)
  }

  /** AddFindRequest with the default status Actual. */
  function AddFindRequestActual(q: RequestQueue, s: Server, rawQuery: string, idf: Idf): (r: Answer)
    requires Inv(q)
    ensures r.documents == FindTopDocumentsActual(Sequenced, s, rawQuery, idf)
    ensures r.queue == Record(q, r.documents)
  {
    AddFindRequestWithStatus(q, s, rawQuery, Actual, idf)
  }

  // ---------------------------------------------------------------- history

  /** A run of UpdateRequests, one per flag. */
  function Run(q: RequestQueue, flags: seq<bool>): (r: RequestQueue)
    requires Inv(q)
    ensures Inv(r)
    decreases |flags|
  {
    if |flags| == 0 then q
    else UpdateRequests(Run(q, flags[..|flags| - 1]), flags[|flags| - 1])
  }

  /** The record of the i-th request of a run from a fresh queue. */
  function Records(flags: seq<bool>): (rs: seq<QueryResult>)
    ensures |rs| == |flags|
    ensures forall i :: 0 <= i < |flags| ==> rs[i] == QueryResult(flags[i], i + 1)
  {
    seq(|flags|, i requires 0 <= i < |flags| => QueryResult(flags[i], i + 1))
  }

  lemma WindowAppend(rs: seq<QueryResult>, x: QueryResult)
    ensures Window(Window(rs) + [x]) == Window(rs + [x])
  {
  }

  /** From a fresh queue, after any run the queue holds exactly the last
      (at most 1440) requests, the counter counts the empty ones among
      them, and the timestamp is the number of requests. */
  lemma {:induction false} RunKeepsLastWindow(flags: seq<bool>)
    ensures Run(NewRequestQueue(), flags).requests == Window(Records(flags))
    ensures Run(NewRequestQueue(), flags).timestamp == |flags|
    decreases |flags|
  {
    if |flags| > 0 {
      var front := flags[..|flags| - 1];
      var b := flags[|flags| - 1];
      var q0 := NewRequestQueue();
      RunKeepsLastWindow(front);
      var before := Run(q0, front);
      var x := QueryResult(b, |flags|);
      assert Run(q0, flags) == UpdateRequests(before, b);
      WindowAppend(Records(front), x);
      RecordsAppend(flags);
    }
  }

  lemma RecordsAppend(flags: seq<bool>)
    requires |flags| > 0
    ensures Records(flags[..|flags| - 1]) + [QueryResult(flags[|flags| - 1], |flags|)] == Records(flags)
  {
  }

  /** The counter of a run from a fresh queue counts the empty searches
      among the last (at most 1440) requests. */
  lemma RunCountsEmptyInWindow(flags: seq<bool>)
    ensures GetNoResultRequests(Run(NewRequestQueue(), flags)) == CountEmpty(Window(Records(flags)))
  {
    RunKeepsLastWindow(flags);
  }
}

=== FILE: results.dfy ===
/** Failure-compatible result type for the operations of the search server.
    The source reports failures as C++ exceptions; each kind it throws is one
    constructor of `Error`. */
module Results {

  /** The exceptions the modelled code throws. */
  datatype Error =
    | InvalidDocumentId   // std::invalid_argument: negative or already used document id
    | InvalidWord         // std::invalid_argument: control character or malformed minus word
    | OutOfRange          // std::out_of_range: a failed `.at` lookup
    | Terminated          // std::terminate: an exception escaped an algorithm run with an execution policy

  datatype Option<T> = None | Some(value: T)

  datatype Result<T> = Ok(value: T) | Err(error: Error) {

    predicate IsFailure() {
      Err?
    }

    function PropagateFailure<U>(): Result<U>
      requires Err?
    {
      Err(error)
    }

    function Extract(): T
      requires Ok?
    {
      value
    }
  }
}

=== FILE: search.dfy ===
/** Searching: FindAllDocuments (both policies), the result sort,
    FindTopDocuments and its overloads, and the sequential MatchDocument. */
module Search {
  import opened Results
  import opened Collections
  import opened DocumentTypes
  import opened SearchServer
  import opened QueryParsing
  import opened ConcurrentMaps
  import opened Relevance
  import Lex

  const MaxResultDocumentCount: nat := 5

  /** Relevances closer than this are compared by rating instead (1e-6). */
  const RelevanceTolerance: real := 0.000001

  /** The parallel overload's ConcurrentMap has four buckets. */
  const ParallelBucketCount: nat := 4

  /** A plus word's posting list names an id without metadata, so
      `documents_.at` fails: the sequential overload throws out_of_range,
      and in the parallel overload the lookup runs inside
      `std::for_each(std::execution::par, …)`, which calls std::terminate. */
  predicate Dangling(s: Server, q: Query)
  {
    exists w, d :: w in q.plusWords && w in s.wordToDocumentFreqs && d in s.wordToDocumentFreqs[w] && d !in s.documents
  }

  /** The documents FindAllDocuments returns: selected by the filter, indexed
      under some plus word, and indexed under no minus word. The minus test
      does not consult the filter. */
  predicate Found(s: Server, q: Query, pred: DocumentPredicate, d: int)
  {
    && Selected(s, pred, d)
    && Indexed(s, q.plusWords, d)
    && !Indexed(s, q.minusWords, d)
  }

  /** The plus loop followed by the minus loop. */
  function Operations(s: Server, q: Query, pred: DocumentPredicate, idf: Idf): seq<MapOp>
  {
    PlusOps(s, q.plusWords, pred, idf) + MinusOps(s, q.minusWords)
  }

  /** The operations on an empty ordinary map give the found documents with
      their reference relevance. */
  lemma PlainRelevance(s: Server, q: Query, pred: DocumentPredicate, idf: Idf)
    ensures var m := ApplyPlain(map[], Operations(s, q, pred, idf));
      && (forall d :: d in m <==> Found(s, q, pred, d))
      && (forall d :: d in m ==> m[d] == TfIdf(s, q.plusWords, d, idf))
  {
    var plus := PlusOps(s, q.plusWords, pred, idf);
    var minus := MinusOps(s, q.minusWords);
    ApplyAppend(map[], plus, minus);
    PlusOpsAddsOnly(s, q.plusWords, pred, idf);
    PlusOpsAddedKeys(s, q.plusWords, pred, idf);
    PlusOpsDelta(s, q.plusWords, pred, idf);
    ApplyAdds(map[], plus);
    MinusOpsErasesOnly(s, q.minusWords);
    MinusOpsErasedKeys(s, q.minusWords);
    ApplyErases(ApplyPlain(map[], plus), minus);
  }

  /** document_to_relevance after both loops: an ordinary map for the
      sequential policy, a ConcurrentMap with four buckets for the parallel
      one. */
  function RelevanceMap(policy: ExecutionPolicy, s: Server, q: Query, pred: DocumentPredicate, idf: Idf): (m: map<int, real>)
    ensures forall d :: d in m <==> Found(s, q, pred, d)
    ensures forall d :: d in m ==> m[d] == TfIdf(s, q.plusWords, d, idf)
  {
    var ops := Operations(s, q, pred, idf);
    PlainRelevance(s, q, pred, idf);
    match policy
    case Sequenced => ApplyPlain(map[], ops)
    case Parallel =>
      var cm := New<real>(ParallelBucketCount);
      ShardedAgrees(cm, ops);
      NewIsEmpty<real>(ParallelBucketCount);
      BuildOrdinaryMap(ApplySharded(cm, ops))
  }

  /** The result vector, one Document per id in map order. */
  function ToDocuments(s: Server, ids: seq<int>, m: map<int, real>): (r: seq<Document>)
    requires forall i :: 0 <= i < |ids| ==> ids[i] in m && ids[i] in s.documents
    ensures |r| == |ids|
    ensures forall i :: 0 <= i < |r| ==> r[i] == Document(ids[i], m[ids[i]], s.documents[ids[i]].rating)
  {
    seq(|ids|, i requires 0 <= i < |ids| => Document(ids[i], m[ids[i]], s.documents[ids[i]].rating))
  }

  /** The failure a dangling posting causes under each policy. */
  function DanglingError(policy: ExecutionPolicy): Error
  {
    match policy
    case Sequenced => OutOfRange
    case Parallel => Terminated
  }

  /** FindAllDocuments for a parsed query. */
  function FindAllDocuments(policy: ExecutionPolicy, s: Server, q: Query, pred: DocumentPredicate, idf: Idf): (r: Result<seq<Document>>)
    ensures r.Err? <==> Dangling(s, q)
    ensures r.Err? ==> r.error == DanglingError(policy)
    ensures r.Ok? ==> forall i, j :: 0 <= i < j < |r.value| ==> r.value[i].id < r.value[j].id
    ensures r.Ok? ==> forall d :: (exists i :: 0 <= i < |r.value| && r.value[i].id == d) <==> Found(s, q, pred, d)
    ensures r.Ok? ==> forall i :: 0 <= i < |r.value| ==>
      && r.value[i].id in s.documents
      && r.value[i].rating == s.documents[r.value[i].id].rating
      && r.value[i].relevance == TfIdf(s, q.plusWords, r.value[i].id, idf)
  {
    if Dangling(s, q) then Err(DanglingError(policy))
    else
      var m := RelevanceMap(policy, s, q, pred, idf);
      ListedDocuments(s, m);
      Ok(MapDocuments(s, m))
  }

  /** The documents of a relevance map whose ids are all live, in
      ascending id order. */
  function MapDocuments(s: Server, m: map<int, real>): seq<Document>
    requires forall d :: d in m ==> d in s.documents
  {
    ToDocuments(s, Ascending(m.Keys), m)
  }

  /** The documents carry exactly the map's ids, ascending, each with its
      relevance from the map and its stored rating. */
  lemma ListedDocuments(s: Server, m: map<int, real>)
    requires forall d :: d in m ==> d in s.documents
    ensures var r := MapDocuments(s, m);
      && (forall i, j :: 0 <= i < j < |r| ==> r[i].id < r[j].id)
      && (forall d :: (exists i :: 0 <= i < |r| && r[i].id == d) <==> d in m)
      && (forall i :: 0 <= i < |r| ==>
            r[i].id in m && r[i].id in s.documents && r[i].relevance == m[r[i].id]
            && r[i].rating == s.documents[r[i].id].rating)
  {
    var ids := Ascending(m.Keys);
    var r := ToDocuments(s, ids, m);
    ListedIds(s, ids, m);
    ListedMembers(s, ids, m);
  }

  /** Each document carries the id at its position. */
  lemma ListedIds(s: Server, ids: seq<int>, m: map<int, real>)
    requires forall i :: 0 <= i < |ids| ==> ids[i] in m && ids[i] in s.documents
    requires StrictlyIncreasing(ids)
    ensures var r := ToDocuments(s, ids, m);
      && (forall i, j :: 0 <= i < j < |r| ==> r[i].id < r[j].id)
      && (forall i :: 0 <= i < |r| ==>
            r[i].id in m && r[i].id in s.documents && r[i].relevance == m[r[i].id]
            && r[i].rating == s.documents[r[i].id].rating)
  {
    var r := ToDocuments(s, ids, m);
    forall i, j | 0 <= i < j < |r|
      ensures r[i].id < r[j].id
    {
      assert r[i].id == ids[i] && r[j].id == ids[j];
    }
  }

  /** The documents carry exactly the listed ids. */
  lemma ListedMembers(s: Server, ids: seq<int>, m: map<int, real>)
    requires forall i :: 0 <= i < |ids| ==> ids[i] in m && ids[i] in s.documents
    requires forall d :: d in ids <==> d in m
    ensures var r := ToDocuments(s, ids, m);
      forall d :: (exists i :: 0 <= i < |r| && r[i].id == d) <==> d in m
  {
    var r := ToDocuments(s, ids, m);
    forall d | d in m
      ensures exists i :: 0 <= i < |r| && r[i].id == d
    {
      var i :| 0 <= i < |ids| && ids[i] == d;
      assert r[i].id == d;
    }
  }

  /** Both policies fail on the same queries (out_of_range sequentially,
      std::terminate in parallel) and otherwise return the same documents
      in the same order. */
  lemma FindAllPoliciesAgree(s: Server, q: Query, pred: DocumentPredicate, idf: Idf)
    ensures FindAllDocuments(Sequenced, s, q, pred, idf).Err? <==> FindAllDocuments(Parallel, s, q, pred, idf).Err?
    ensures FindAllDocuments(Sequenced, s, q, pred, idf).Ok? ==>
      FindAllDocuments(Sequenced, s, q, pred, idf) == FindAllDocuments(Parallel, s, q, pred, idf)
  {
    if Dangling(s, q) {
      return;
    }
    var a := RelevanceMap(Sequenced, s, q, pred, idf);
    var b := RelevanceMap(Parallel, s, q, pred, idf);
    forall d
      ensures d in a <==> d in b
      ensures d in a ==> a[d] == b[d]
    {
      assert d in a <==> Found(s, q, pred, d);
    }
    assert a.Keys == b.Keys;
    assert a == b;
  }

  // ---------------------------------------------------------------- sorting and truncation

  function Abs(x: real): real
  {
    if x < 0.0 then -x else x
  }

  /** The comparator given to std::sort: by relevance, descending, except
      that relevances within the tolerance are ordered by rating,
      descending. It is not transitive, so it is not a strict weak order. */
  predicate Before(a: Document, b: Document)
  {
    if Abs(a.relevance - b.relevance) < RelevanceTolerance then a.rating > b.rating
    else a.relevance > b.relevance
  }

  lemma BeforeAsymmetric(a: Document, b: Document)
    requires Before(a, b)
    ensures !Before(b, a)
  {
  }

  /** Three documents whose relevances lie 0.6e-6 apart each precede the
      next: the first two pairs are ties ordered by rating, the outer pair
      is ordered by relevance. So `Before` runs in a cycle. */
  lemma BeforeCycles()
    ensures exists a: Document, b: Document, c: Document :: Before(a, b) && Before(b, c) && Before(c, a)
  {
    var a := Document(1, 0.0, 2);
    var b := Document(2, 0.0000006, 1);
    var c := Document(3, 0.0000012, 0);
    assert Before(a, b) && Before(b, c) && Before(c, a);
  }

  /** No element is placed after one it should precede. */
  predicate LocallyOrdered(xs: seq<Document>)
  {
    forall i :: 0 <= i < |xs| - 1 ==> !Before(xs[i + 1], xs[i])
  }

  function InsertSorted(x: Document, ys: seq<Document>): (r: seq<Document>)
    requires LocallyOrdered(ys)
    ensures LocallyOrdered(r)
    ensures multiset(r) == multiset(ys) + multiset{x}
    ensures |r| == |ys| + 1
    ensures r[0] == x || (|ys| > 0 && r[0] == ys[0])
    decreases |ys|
  {
    if |ys| == 0 then [x]
    else if Before(x, ys[0]) then
      BeforeAsymmetric(x, ys[0]);
      [x] + ys
    else
      var rest := InsertSorted(x, ys[1..]);
      assert ys == [ys[0]] + ys[1..];
      assert LocallyOrdered([ys[0]] + rest) by {
        forall i | 0 <= i < |rest|
          ensures !Before(([ys[0]] + rest)[i + 1], ([ys[0]] + rest)[i])
        {
          if i == 0 {
            assert |ys| > 1 ==> !Before(ys[1], ys[0]);
          } else {
            assert ([ys[0]] + rest)[i + 1] == rest[i] && ([ys[0]] + rest)[i] == rest[i - 1];
          }
        }
      }
      [ys[0]] + rest
  }

  /** std::sort with the comparator above, as an insertion sort: a
      permutation of the input in which no neighbours are out of order. */
  function SortDocuments(xs: seq<Document>): (r: seq<Document>)
    ensures LocallyOrdered(r)
    ensures multiset(r) == multiset(xs)
    ensures |r| == |xs|
    decreases |xs|
  {
    if |xs| == 0 then []
    else
      assert xs == [xs[0]] + xs[1..];
      InsertSorted(xs[0], SortDocuments(xs[1..]))
  }

  /** The sorted results cut to at most MaxResultDocumentCount. */
  function Top(all: seq<Document>): (r: seq<Document>)
    ensures |r| == if |all| > MaxResultDocumentCount then MaxResultDocumentCount else |all|
    ensures LocallyOrdered(r)
    ensures multiset(r) <= multiset(all)
    ensures forall doc :: doc in r ==> doc in all
  {
    var sorted := SortDocuments(all);
    assert forall doc :: doc in sorted ==> doc in all by {
      forall doc | doc in sorted ensures doc in all {
        assert multiset(sorted)[doc] > 0;
      }
    }
    if |sorted| > MaxResultDocumentCount then
      assert sorted == sorted[..MaxResultDocumentCount] + sorted[MaxResultDocumentCount..];
      sorted[..MaxResultDocumentCount]
    else sorted
  }

  /** In a list with strictly increasing ids, the id identifies the document. */
  lemma IdsIdentify(all: seq<Document>)
    requires forall i, j :: 0 <= i < j < |all| ==> all[i].id < all[j].id
    ensures forall x, y :: x in all && y in all && x.id == y.id ==> x == y
  {
    forall x, y | x in all && y in all && x.id == y.id
      ensures x == y
    {
      var p :| 0 <= p < |all| && all[p] == x;
      var q :| 0 <= q < |all| && all[q] == y;
      assert p == q;
    }
  }

  /** In a list with strictly increasing ids, no document occurs twice. */
  lemma {:induction false} OccursOnce(all: seq<Document>)
    requires forall i, j :: 0 <= i < j < |all| ==> all[i].id < all[j].id
    ensures forall x :: multiset(all)[x] <= 1
    decreases |all|
  {
    if |all| > 0 {
      var rest := all[1..];
      OccursOnce(rest);
      assert all == [all[0]] + rest;
      assert all[0] !in rest;
      assert multiset(all) == multiset([all[0]]) + multiset(rest);
    }
  }

  /** A document at two positions occurs at least twice. */
  lemma TwoPositions(r: seq<Document>, i: int, j: int)
    requires 0 <= i < j < |r| && r[i] == r[j]
    ensures multiset(r)[r[i]] >= 2
  {
    assert r == r[..j] + r[j..];
    assert r[..j][i] == r[i];
    assert r[j..][0] == r[i];
  }

  /** Part of a list with strictly increasing ids has distinct ids. */
  lemma SubMultisetDistinctIds(r: seq<Document>, all: seq<Document>)
    requires forall i, j :: 0 <= i < j < |all| ==> all[i].id < all[j].id
    requires multiset(r) <= multiset(all)
    ensures DistinctIds(r)
  {
    IdsIdentify(all);
    OccursOnce(all);
    forall i, j | 0 <= i < j < |r|
      ensures r[i].id != r[j].id
    {
      if r[i].id == r[j].id {
        assert multiset(r)[r[i]] > 0 && multiset(r)[r[j]] > 0;
        assert r[i] in all && r[j] in all;
        TwoPositions(r, i, j);
        assert false;
      }
    }
  }

  /** What truncating the sorted `all` gives: min(|all|, 5) documents, no
      neighbours out of order, each taken from `all` no more often than it
      occurs there. */
  predicate TruncationOf(all: seq<Document>, r: seq<Document>)
  {
    && |r| == (if |all| > MaxResultDocumentCount then MaxResultDocumentCount else |all|)
    && LocallyOrdered(r)
    && multiset(r) <= multiset(all)
  }

  /** No two documents share an id. */
  predicate DistinctIds(r: seq<Document>)
  {
    forall i, j :: 0 <= i < j < |r| ==> r[i].id != r[j].id
  }

  /** A document FindAllDocuments may return: found, with its stored
      rating and its reference relevance. */
  predicate Listed(s: Server, q: Query, pred: DocumentPredicate, idf: Idf, doc: Document)
  {
    && Found(s, q, pred, doc.id)
    && doc.id in s.documents
    && doc.rating == s.documents[doc.id].rating
    && doc.relevance == TfIdf(s, q.plusWords, doc.id, idf)
  }

  lemma AllListed(policy: ExecutionPolicy, s: Server, q: Query, pred: DocumentPredicate, idf: Idf)
    requires FindAllDocuments(policy, s, q, pred, idf).Ok?
    ensures var all := FindAllDocuments(policy, s, q, pred, idf).value;
      forall i :: 0 <= i < |all| ==> Listed(s, q, pred, idf, all[i])
  {
    var all := FindAllDocuments(policy, s, q, pred, idf).value;
    forall i | 0 <= i < |all|
      ensures Found(s, q, pred, all[i].id)
    {
      assert exists j :: 0 <= j < |all| && all[j].id == all[i].id;
    }
  }

  lemma TopKeepsListed(s: Server, q: Query, pred: DocumentPredicate, idf: Idf, all: seq<Document>)
    requires forall i :: 0 <= i < |all| ==> Listed(s, q, pred, idf, all[i])
    ensures forall doc :: doc in Top(all) ==> Listed(s, q, pred, idf, doc)
  {
    forall doc | doc in Top(all)
      ensures Listed(s, q, pred, idf, doc)
    {
      assert doc in all;
    }
  }

  // ---------------------------------------------------------------- FindTopDocuments

  /** FindTopDocuments with a filter: parse, find, sort, truncate. A parse
      error or a dangling posting propagates. */
  function FindTopDocuments(policy: ExecutionPolicy, s: Server, rawQuery: string, pred: DocumentPredicate, idf: Idf): (r: Result<seq<Document>>)
    ensures ParseQuery(s, rawQuery).Err? ==> r.Err? && r.error == InvalidWord
    ensures ParseQuery(s, rawQuery).Ok? ==> (r.Err? <==> Dangling(s, ParseQuery(s, rawQuery).value))
    ensures ParseQuery(s, rawQuery).Ok? && r.Err? ==> r.error == DanglingError(policy)
    ensures r.Ok? ==> |r.value| <= MaxResultDocumentCount
    ensures r.Ok? ==> TruncationOf(FindAllDocuments(policy, s, ParseQuery(s, rawQuery).value, pred, idf).value, r.value)
    ensures r.Ok? ==> DistinctIds(r.value)
    ensures r.Ok? ==> forall doc :: doc in r.value ==> Listed(s, ParseQuery(s, rawQuery).value, pred, idf, doc)
  {
    match ParseQuery(s, rawQuery)
    case Err(e) => Err(e)
    case Ok(q) =>
      match FindAllDocuments(policy, s, q, pred, idf)
      case Err(e) => Err(e)
      case Ok(all) =>
        AllListed(policy, s, q, pred, idf);
        TopKeepsListed(s, q, pred, idf, all);
        SubMultisetDistinctIds(Top(all), all);
        Ok(Top(all))
  }

  /** Both policies fail on the same queries and otherwise give the same
      top documents. */
  lemma FindTopPoliciesAgree(s: Server, rawQuery: string, pred: DocumentPredicate, idf: Idf)
    ensures FindTopDocuments(Sequenced, s, rawQuery, pred, idf).Err? <==> FindTopDocuments(Parallel, s, rawQuery, pred, idf).Err?
    ensures FindTopDocuments(Sequenced, s, rawQuery, pred, idf).Ok? ==>
      FindTopDocuments(Sequenced, s, rawQuery, pred, idf) == FindTopDocuments(Parallel, s, rawQuery, pred, idf)
  {
    if ParseQuery(s, rawQuery).Ok? {
      FindAllPoliciesAgree(s, ParseQuery(s, rawQuery).value, pred, idf);
    }
  }

  /** The filter of the status overload. */
  function StatusIs(status: DocumentStatus): DocumentPredicate
  {
    (id: int, documentStatus: DocumentStatus, rating: int) => documentStatus == status
  }

  /** The status overload: exactly the found documents whose stored status
      is `status`. */
  function FindTopDocumentsWithStatus(policy: ExecutionPolicy, s: Server, rawQuery: string, status: DocumentStatus, idf: Idf): (r: Result<seq<Document>>)
    ensures ParseQuery(s, rawQuery).Err? ==> r.Err? && r.error == InvalidWord
    ensures ParseQuery(s, rawQuery).Ok? ==> (r.Err? <==> Dangling(s, ParseQuery(s, rawQuery).value))
    ensures ParseQuery(s, rawQuery).Ok? && r.Err? ==> r.error == DanglingError(policy)
    ensures r.Ok? ==> DistinctIds(r.value)
    ensures r.Ok? ==> forall doc :: doc in r.value ==> Listed(s, ParseQuery(s, rawQuery).value, StatusIs(status), idf, doc)
    ensures r.Ok? ==> |r.value| <= MaxResultDocumentCount
    ensures r.Ok? ==> forall doc :: doc in r.value ==>
      doc.id in s.documents && s.documents[doc.id].status == status
    ensures r.Ok? ==> ParseQuery(s, rawQuery).Ok?
    ensures r.Ok? ==> TruncationOf(FindAllDocuments(policy, s, ParseQuery(s, rawQuery).value, StatusIs(status), idf).value, r.value)
    ensures r.Ok? && |r.value| < MaxResultDocumentCount ==> forall d ::
      Found(s, ParseQuery(s, rawQuery).value, StatusIs(status), d) ==> exists doc :: doc in r.value && doc.id == d
  {
    var r := FindTopDocuments(policy, s, rawQuery, StatusIs(status), idf);
    if r.Err? || |r.value| >= MaxResultDocumentCount then r
    else
      FewResultsAreAll(policy, s, rawQuery, StatusIs(status), idf);
      r
  }

  /** With fewer results than the cap, nothing found was cut. */
  lemma FewResultsAreAll(policy: ExecutionPolicy, s: Server, rawQuery: string, pred: DocumentPredicate, idf: Idf)
    requires FindTopDocuments(policy, s, rawQuery, pred, idf).Ok?
    requires |FindTopDocuments(policy, s, rawQuery, pred, idf).value| < MaxResultDocumentCount
    ensures forall d :: Found(s, ParseQuery(s, rawQuery).value, pred, d) ==>
      exists doc :: doc in FindTopDocuments(policy, s, rawQuery, pred, idf).value && doc.id == d
  {
    var q := ParseQuery(s, rawQuery).value;
    var all := FindAllDocuments(policy, s, q, pred, idf).value;
    var sorted := SortDocuments(all);
    assert FindTopDocuments(policy, s, rawQuery, pred, idf).value == sorted;
    forall d | Found(s, q, pred, d)
      ensures exists doc :: doc in sorted && doc.id == d
    {
      var i :| 0 <= i < |all| && all[i].id == d;
      assert multiset(all)[all[i]] > 0;
      assert all[i] in sorted;
    }
  }

  /** The overload without a filter keeps the Actual documents. */
  function FindTopDocumentsActual(policy: ExecutionPolicy, s: Server, rawQuery: string, idf: Idf): (r: Result<seq<Document>>)
    ensures ParseQuery(s, rawQuery).Err? ==> r.Err? && r.error == InvalidWord
    ensures ParseQuery(s, rawQuery).Ok? ==> (r.Err? <==> Dangling(s, ParseQuery(s, rawQuery).value))
    ensures ParseQuery(s, rawQuery).Ok? && r.Err? ==> r.error == DanglingError(policy)
    ensures r.Ok? ==> DistinctIds(r.value)
    ensures r.Ok? ==> forall doc :: doc in r.value ==> Listed(s, ParseQuery(s, rawQuery).value, StatusIs(Actual), idf, doc)
    ensures r.Ok? ==> |r.value| <= MaxResultDocumentCount
    ensures r.Ok? ==> forall doc :: doc in r.value ==>
      doc.id in s.documents && s.documents[doc.id].status == Actual
    ensures r.Ok? ==> ParseQuery(s, rawQuery).Ok?
    ensures r.Ok? ==> TruncationOf(FindAllDocuments(policy, s, ParseQuery(s, rawQuery).value, StatusIs(Actual), idf).value, r.value)
    ensures r.Ok? && |r.value| < MaxResultDocumentCount ==> forall d ::
      Found(s, ParseQuery(s, rawQuery).value, StatusIs(Actual), d) ==> exists doc :: doc in r.value && doc.id == d
  {
    FindTopDocumentsWithStatus(policy, s, rawQuery, Actual, idf)
  }

  // ---------------------------------------------------------------- MatchDocument

  datatype Match = Match(words: seq<string>, status: DocumentStatus)

  /** The plus words, in order, whose posting list holds `id`. */
  function MatchedWords(s: Server, words: seq<string>, id: int): (r: seq<string>)
    ensures forall x :: x in r <==> x in words && x in s.wordToDocumentFreqs && id in s.wordToDocumentFreqs[x]
    ensures Lex.Increasing(words) ==> Lex.Increasing(r)
    decreases |words|
  {
    if |words| == 0 then []
    else
      var w := words[0];
      var rest := MatchedWords(s, words[1..], id);
      assert words == [w] + words[1..];
      if w in s.wordToDocumentFreqs && id in s.wordToDocumentFreqs[w] then
        assert Lex.Increasing(words) ==> Lex.Increasing([w] + rest) by {
          if Lex.Increasing(words) {
            forall x | x in rest ensures Lex.Less(w, x) {
              var j :| 0 <= j < |words[1..]| && words[1..][j] == x;
              assert words[j + 1] == x;
            }
          }
        }
        [w] + rest
      else rest
  }

  /** The sequential MatchDocument: the plus words indexed for the document,
      ascending, or none when a minus word is indexed for it, with the
      stored status. */
  function MatchDocument(s: Server, rawQuery: string, id: int): (r: Result<Match>)
    ensures ParseQuery(s, rawQuery).Err? ==> r.Err? && r.error == InvalidWord
    ensures ParseQuery(s, rawQuery).Ok? && id !in s.documents ==> r.Err? && r.error == OutOfRange
    ensures r.Ok? <==> ParseQuery(s, rawQuery).Ok? && id in s.documents
    ensures r.Ok? ==> r.value.status == s.documents[id].status && Lex.Increasing(r.value.words)
    ensures r.Ok? && Indexed(s, ParseQuery(s, rawQuery).value.minusWords, id) ==> r.value.words == []
    ensures r.Ok? && !Indexed(s, ParseQuery(s, rawQuery).value.minusWords, id) ==>
      forall x :: x in r.value.words <==>
        x in ParseQuery(s, rawQuery).value.plusWords && x in s.wordToDocumentFreqs && id in s.wordToDocumentFreqs[x]
  {
    match ParseQuery(s, rawQuery)
    case Err(e) => Err(e)
    case Ok(q) =>
      var matched := if Indexed(s, q.minusWords, id) then [] else MatchedWords(s, q.plusWords, id);
      if id !in s.documents then Err(OutOfRange)
      else Ok(Match(matched, s.documents[id].status))
  }

  /** Under the invariant the matched words are the plus words found in the
      document's forward entry. */
  lemma MatchDocumentUsesForwardTable(s: Server, rawQuery: string, id: int)
    requires SearchServer.Valid(s)
    requires MatchDocument(s, rawQuery, id).Ok?
    ensures var q := ParseQuery(s, rawQuery).value;
      var words := MatchDocument(s, rawQuery, id).value.words;
      && ((exists w :: w in q.minusWords && w in GetWordFrequencies(s, id)) ==> words == [])
      && ((forall w :: w in q.minusWords ==> w !in GetWordFrequencies(s, id)) ==>
            forall x :: x in words <==> x in q.plusWords && x in GetWordFrequencies(s, id))
  {
  }
}

=== FILE: search_server.dfy ===
/** The index of the search server: stop words, the inverted table
    (word -> id -> term frequency), the forward table (id -> word -> term
    frequency), the metadata table and the ordered id set, with the
    operations that build and shrink it. */
module SearchServer {
  import opened Results
  import opened Collections
  import opened StringProcessing
  import opened DocumentTypes

  datatype DocumentData = DocumentData(rating: int, status: DocumentStatus)

  /** Document id -> term frequency of one word. */
  type Postings = map<int, real>

  /** Word -> term frequency within one document. */
  type WordFreqs = map<string, real>

  datatype Server = Server(
    stopWords: set<string>,
    wordToDocumentFreqs: map<string, Postings>,
    documentToWordFreqs: map<int, WordFreqs>,
    documents: map<int, DocumentData>,
    documentIds: set<int>)

  /** The two frequency tables hold exactly the same (word, id, frequency)
      triples. */
  ghost predicate Mirror(inv: map<string, Postings>, fwd: map<int, WordFreqs>)
  {
    && (forall w, d :: w in inv && d in inv[w] ==> d in fwd && w in fwd[d] && fwd[d][w] == inv[w][d])
    && (forall d, w :: d in fwd && w in fwd[d] ==> w in inv && d in inv[w])
  }

  /** The invariant the four structures keep together. */
  ghost predicate Valid(s: Server)
  {
    && s.documentIds == s.documents.Keys
    && s.documentToWordFreqs.Keys <= s.documentIds
    && Mirror(s.wordToDocumentFreqs, s.documentToWordFreqs)
    && (forall w :: w in s.stopWords ==> |w| > 0 && IsValidWord(w))
  }

  /** Characters 0 to 31 are control characters. */
  predicate IsControl(c: char)
  {
    '\0' <= c < ' '
  }

  predicate IsValidWord(word: string)
  {
    forall i :: 0 <= i < |word| ==> !IsControl(word[i])
  }

  /** Checking every word of a text is checking the text: a space is no
      control character, and every other character lies in some word. */
  lemma ValidWordsIffValidText(text: string)
    ensures (forall w :: w in SplitIntoWords(text) ==> IsValidWord(w)) <==> IsValidWord(text)
  {
    var words := SplitIntoWords(text);
    if IsValidWord(text) {
      forall w | w in words
        ensures IsValidWord(w)
      {
        forall i | 0 <= i < |w|
          ensures !IsControl(w[i])
        {
          FlattenMembers(words, w[i]);
          WithoutSpacesMembers(text, w[i]);
        }
      }
    } else {
      var i :| 0 <= i < |text| && IsControl(text[i]);
      WithoutSpacesMembers(text, text[i]);
      FlattenMembers(words, text[i]);
      var w :| w in words && text[i] in w;
      assert !IsValidWord(w);
    }
  }

  predicate IsStopWord(s: Server, word: string)
  {
    word in s.stopWords
  }

  // ---------------------------------------------------------------- construction

  function EmptyServer(stopWords: set<string>): Server
  {
    Server(stopWords, map[], map[], map[], {})
  }

  /** The constructor from a container of stop words: the non-empty ones are
      kept once each, and a control character in any of them is an error. */
  function NewServer(stopWords: seq<string>): (r: Result<Server>)
    ensures r.Err? <==> exists w :: w in stopWords && |w| > 0 && !IsValidWord(w)
    ensures r.Err? ==> r.error == InvalidWord
    ensures r.Ok? ==> Valid(r.value) && r.value.documents == map[]
    ensures r.Ok? ==> forall w :: w in r.value.stopWords <==> w in stopWords && |w| > 0
  {
    var stop := MakeUniqueNonEmptyStrings(stopWords);
    if forall w :: w in stop ==> IsValidWord(w) then Ok(EmptyServer(stop))
    else Err(InvalidWord)
  }

  /** The constructor from one space-separated string of stop words. */
  function NewServerFromText(stopWordsText: string): (r: Result<Server>)
    ensures r.Err? <==> exists w :: w in SplitIntoWords(stopWordsText) && !IsValidWord(w)
    ensures r.Ok? ==> Valid(r.value) && r.value.documents == map[]
    ensures r.Ok? ==> forall w :: w in r.value.stopWords <==> w in SplitIntoWords(stopWordsText)
  {
    NewServer(SplitIntoWords(stopWordsText))
  }

  /** A server built from a text of stop words treats exactly the words of
      that text as stop words. */
  lemma StopWordsFromText(stopWordsText: string, word: string)
    requires NewServerFromText(stopWordsText).Ok?
    ensures IsStopWord(NewServerFromText(stopWordsText).value, word) <==> word in SplitIntoWords(stopWordsText)
  {
  }

  // ---------------------------------------------------------------- small helpers

  function GetDocumentCount(s: Server): nat
  {
    |s.documents|
  }

  /** The count is the number of ids begin()/end() walk; adding a document
      raises it by one and removing a known one lowers it by one. */
  lemma DocumentCountTracksIds(s: Server, id: int, document: string, status: DocumentStatus, ratings: seq<int>)
    requires Valid(s)
    ensures GetDocumentCount(s) == |DocumentIdsInOrder(s)|
    ensures AddDocument(s, id, document, status, ratings).Ok? ==>
      GetDocumentCount(AddDocument(s, id, document, status, ratings).value) == GetDocumentCount(s) + 1
    ensures GetDocumentCount(RemoveDocument(s, id)) == if id in s.documents then GetDocumentCount(s) - 1 else GetDocumentCount(s)
  {
    assert |s.documents| == |s.documents.Keys|;
    if id in s.documents {
      var r := RemoveDocument(s, id);
      assert r.documents.Keys == s.documents.Keys - {id};
    }
  }

  /** begin()/end(): the live ids in ascending order. */
  function DocumentIdsInOrder(s: Server): (r: seq<int>)
    ensures StrictlyIncreasing(r)
    ensures forall d :: d in r <==> d in s.documentIds
  {
    Ascending(s.documentIds)
  }

  /** The words of the document that are not stop words, in order and with
      repetitions. */
  function SplitIntoWordsNoStop(s: Server, text: string): (r: seq<string>)
    ensures forall w :: w in r <==> w in SplitIntoWords(text) && w !in s.stopWords
    ensures forall w :: w !in s.stopWords ==> multiset(r)[w] == multiset(SplitIntoWords(text))[w]
  {
    DropStopWords(SplitIntoWords(text), s.stopWords)
  }

  function DropStopWords(words: seq<string>, stop: set<string>): (r: seq<string>)
    ensures forall w :: w in r <==> w in words && w !in stop
    ensures forall w :: w !in stop ==> multiset(r)[w] == multiset(words)[w]
  {
    if |words| == 0 then []
    else
      var rest := DropStopWords(words[1..], stop);
      assert words == [words[0]] + words[1..];
      if words[0] in stop then rest else [words[0]] + rest
  }

  /** The filter keeps order: filtering two stretches of words one after
      the other gives the filter of the whole. With DropOneWord this pins
      the result down to the non-stop words in their original order. */
  lemma {:induction false} DropStopWordsAppend(a: seq<string>, b: seq<string>, stop: set<string>)
    ensures DropStopWords(a + b, stop) == DropStopWords(a, stop) + DropStopWords(b, stop)
    decreases |a|
  {
    if |a| > 0 {
      DropStopWordsAppend(a[1..], b, stop);
      AppendStep(a, b, stop);
    } else {
      assert a + b == b;
    }
  }

  /** The induction step of DropStopWordsAppend: the law for `a` follows
      from the law for the words after its first. */
  lemma {:induction false} AppendStep(a: seq<string>, b: seq<string>, stop: set<string>)
    requires |a| > 0
    requires DropStopWords(a[1..] + b, stop) == DropStopWords(a[1..], stop) + DropStopWords(b, stop)
    ensures DropStopWords(a + b, stop) == DropStopWords(a, stop) + DropStopWords(b, stop)
  {
    DropAfterFirst(a, b, stop);
    DropHead(a, stop);
    ConsThenAppend(a[0], a[0] !in stop, DropStopWords(a[1..], stop), DropStopWords(b, stop),
      DropStopWords(a, stop), DropStopWords(a + b, stop));
  }

  /** Filtering `a + b` looks at the first word of `a`, then at the rest of
      `a` followed by `b`. */
  lemma {:induction false} DropAfterFirst(a: seq<string>, b: seq<string>, stop: set<string>)
    requires |a| > 0
    ensures DropStopWords(a + b, stop) ==
      if a[0] in stop then DropStopWords(a[1..] + b, stop) else [a[0]] + DropStopWords(a[1..] + b, stop)
  {
    var ab := a + b;
    assert ab[0] == a[0];
    assert ab[1..] == a[1..] + b;
    DropHead(ab, stop);
  }

  /** Prepending a word, or not, commutes with appending a tail. */
  lemma ConsThenAppend(w: string, kept: bool, rest: seq<string>, tail: seq<string>, x: seq<string>, whole: seq<string>)
    requires x == if kept then [w] + rest else rest
    requires whole == if kept then [w] + (rest + tail) else rest + tail
    ensures whole == x + tail
  {
    if kept {
      assert [w] + (rest + tail) == ([w] + rest) + tail;
    }
  }

  /** The filter of a non-empty list: its first word, if kept, then the
      filter of the rest. */
  lemma {:induction false} DropHead(words: seq<string>, stop: set<string>)
    requires |words| > 0
    ensures DropStopWords(words, stop) ==
      if words[0] in stop then DropStopWords(words[1..], stop) else [words[0]] + DropStopWords(words[1..], stop)
  {
  }

  /** One word is kept iff it is not a stop word. */
  lemma DropOneWord(w: string, stop: set<string>)
    ensures DropStopWords([w], stop) == if w in stop then [] else [w]
  {
    assert [w][1..] == [];
  }

  /** Integer division rounding toward zero, as C++ `/` on int. */
  function DivTowardZero(a: int, n: int): int
    requires n > 0
  {
    if a >= 0 then a / n else -((-a) / n)
  }

  /** The average rating: 0 for no ratings, otherwise the sum divided by the
      count with the quotient truncated toward zero. */
  function ComputeAverageRating(ratings: seq<int>): (r: int)
    ensures |ratings| == 0 ==> r == 0
    ensures |ratings| > 0 && Sum(ratings) >= 0 ==> 0 <= Sum(ratings) - r * |ratings| < |ratings|
    ensures |ratings| > 0 && Sum(ratings) < 0 ==> -|ratings| < Sum(ratings) - r * |ratings| <= 0
  {
    if |ratings| == 0 then 0 else DivTowardZero(Sum(ratings), |ratings|)
  }

  /** Word -> frequency of one document; empty for an id without a forward
      entry. Under the invariant it is what the inverted table says. */
  function GetWordFrequencies(s: Server, id: int): (r: WordFreqs)
    ensures id !in s.documentToWordFreqs ==> r == map[]
    ensures Valid(s) ==> forall w :: w in r <==> w in s.wordToDocumentFreqs && id in s.wordToDocumentFreqs[w]
    ensures Valid(s) ==> forall w :: w in r ==> r[w] == s.wordToDocumentFreqs[w][id]
  {
    Get(s.documentToWordFreqs, id, map[])
  }

  // ---------------------------------------------------------------- adding a document

  /** The reference meaning of term frequency: occurrences over word count. */
  function TermFrequencies(words: seq<string>): WordFreqs
  {
    map w | w in words :: (multiset(words)[w] as real) / (|words| as real)
  }

  /** One pass of the word loop of AddDocument: `delta` is added to the entry
      for (`w`, `id`) of both tables, each default-inserted as 0.0. */
  function AddOccurrence(s: Server, w: string, id: int, delta: real): Server
  {
    s.(wordToDocumentFreqs := s.wordToDocumentFreqs[w := Bump(Get(s.wordToDocumentFreqs, w, map[]), id, delta)],
       documentToWordFreqs := s.documentToWordFreqs[id := Bump(Get(s.documentToWordFreqs, id, map[]), w, delta)])
  }

  /** The word loop over `words`. */
  function Accumulate(s: Server, id: int, words: seq<string>, delta: real): (r: Server)
    ensures r.stopWords == s.stopWords && r.documents == s.documents && r.documentIds == s.documentIds
    decreases |words|
  {
    if |words| == 0 then s
    else Accumulate(AddOccurrence(s, words[0], id, delta), id, words[1..], delta)
  }

  /** The word loop of AddDocument: each occurrence adds `1 / |words|`. */
  function IndexWords(s: Server, id: int, words: seq<string>): (r: Server)
    ensures r.stopWords == s.stopWords && r.documents == s.documents && r.documentIds == s.documentIds
  {
    if |words| == 0 then s else Accumulate(s, id, words, 1.0 / (|words| as real))
  }

  /** Index of the first word with a control character, or |words|. */
  function FirstInvalid(words: seq<string>): (k: nat)
    ensures k <= |words|
    ensures forall i :: 0 <= i < k ==> IsValidWord(words[i])
    ensures k < |words| ==> !IsValidWord(words[k])
  {
    if |words| == 0 then 0
    else if !IsValidWord(words[0]) then 0
    else 1 + FirstInvalid(words[1..])
  }

  /** AddDocument with the rollback its catch block attempts
      (search_server.cpp:31-33) made effective: on any error the server is
      left exactly as it was. */
  function AddDocument(s: Server, id: int, document: string, status: DocumentStatus, ratings: seq<int>): (r: Result<Server>)
    ensures (r.Err? && r.error == InvalidDocumentId) <==> id < 0 || id in s.documents
    ensures r.Err? <==> id < 0 || id in s.documents || exists w :: w in SplitIntoWordsNoStop(s, document) && !IsValidWord(w)
    ensures r.Err? ==> r.error == InvalidDocumentId || r.error == InvalidWord
    ensures r.Ok? ==> r.value.documents == s.documents[id := DocumentData(ComputeAverageRating(ratings), status)]
    ensures r.Ok? ==> r.value.documentIds == s.documentIds + {id}
    ensures r.Ok? ==> r.value.stopWords == s.stopWords
  {
    if id < 0 || id in s.documents then Err(InvalidDocumentId)
    else
      var words := SplitIntoWordsNoStop(s, document);
      var k := FirstInvalid(words);
      if k < |words| then
        Err(InvalidWord)
      else
        var indexed := IndexWords(s, id, words);
        Ok(indexed.(documents := indexed.documents[id := DocumentData(ComputeAverageRating(ratings), status)],
                    documentIds := indexed.documentIds + {id}))
  }

  // ---------------------------------------------------------------- removing a document

  /** RemoveDocument without the failing `.at`: an unknown id is a no-op; a
      known id leaves the id set, the metadata, the forward table and every
      posting list of its words. Emptied posting lists stay in place. */
  function RemoveDocument(s: Server, id: int): (r: Server)
    ensures id !in s.documentIds ==> r == s
    ensures id in s.documentIds ==> r.documentIds == s.documentIds - {id} && r.documents == s.documents - {id}
    ensures id in s.documentIds ==> r.documentToWordFreqs == s.documentToWordFreqs - {id}
    ensures r.wordToDocumentFreqs.Keys == s.wordToDocumentFreqs.Keys && r.stopWords == s.stopWords
  {
    if id !in s.documentIds then s
    else
      var words := GetWordFrequencies(s, id).Keys;
      s.(documentIds := s.documentIds - {id},
         documents := s.documents - {id},
         wordToDocumentFreqs := map w | w in s.wordToDocumentFreqs ::
           if w in words then s.wordToDocumentFreqs[w] - {id} else s.wordToDocumentFreqs[w],
         documentToWordFreqs := s.documentToWordFreqs - {id})
  }

  /** The per-word erase loop of RemoveDocument, visiting the words in the
      order `order`: each `.at(w)` must find the word. */
  function EraseEach(inv: map<string, Postings>, order: seq<string>, id: int): (r: map<string, Postings>)
    requires forall w :: w in order ==> w in inv
    ensures r.Keys == inv.Keys
    decreases |order|
  {
    if |order| == 0 then inv
    else
      var w := order[0];
      EraseEach(inv[w := inv[w] - {id}], order[1..], id)
  }

  /** Whatever order the sequential or the parallel for_each visits the
      words in, the postings end the same: `id` erased from exactly the
      visited words' lists. */
  lemma {:induction false} RemovalOrderIrrelevant(inv: map<string, Postings>, order: seq<string>, id: int)
    requires forall w :: w in order ==> w in inv
    ensures EraseEach(inv, order, id) == map w | w in inv :: if w in order then inv[w] - {id} else inv[w]
    decreases |order|
  {
    if |order| > 0 {
      var w := order[0];
      var inv' := inv[w := inv[w] - {id}];
      RemovalOrderIrrelevant(inv', order[1..], id);
      assert forall x :: x in order <==> x == w || x in order[1..];
      var a := EraseEach(inv, order, id);
      var b := map x | x in inv :: if x in order then inv[x] - {id} else inv[x];
      forall x | x in inv
        ensures a[x] == b[x]
      {
        if x == w {
          assert inv'[x] - {id} == inv[x] - {id};
        }
      }
      assert a.Keys == b.Keys;
    }
  }
}

=== FILE: server_indexing.dfy ===
/** What AddDocument and RemoveDocument do to the two frequency tables,
    proved about the functions of SearchServer. */
module ServerIndexing {
  import opened Collections
  import opened DocumentTypes
  import opened SearchServer
  /** RemoveDocument under an execution policy: both policy overloads have
      the same body. */
  function RemoveDocumentWith(policy: ExecutionPolicy, s: Server, id: int): (r: Server)
    ensures Valid(s) ==> Valid(r)
    ensures Valid(s) && id in s.documentIds ==> GetDocumentCount(r) == GetDocumentCount(s) - 1
    ensures Valid(s) ==> GetWordFrequencies(r, id) == map[]
  {
    RemoveDocumentPreservesValid(s, id);
    RemoveDocument(s, id)
  }

  // ---------------------------------------------------------------- proofs about adding

  /** What the word loop does to the forward table: the entry of `id` is
      bumped once per word; no other entry changes. */
  lemma {:induction false} AccumulateForward(s: Server, id: int, words: seq<string>, delta: real)
    ensures var r := Accumulate(s, id, words, delta);
      && Get(r.documentToWordFreqs, id, map[]) == BumpEach(Get(s.documentToWordFreqs, id, map[]), words, delta)
      && (id in r.documentToWordFreqs <==> id in s.documentToWordFreqs || |words| > 0)
      && (forall d :: d != id ==> (d in r.documentToWordFreqs <==> d in s.documentToWordFreqs))
      && (forall d :: d != id && d in s.documentToWordFreqs ==> r.documentToWordFreqs[d] == s.documentToWordFreqs[d])
    decreases |words|
  {
    if |words| > 0 {
      AccumulateForward(AddOccurrence(s, words[0], id, delta), id, words[1..], delta);
    }
  }

  /** What the word loop does to the inverted table: posting lists of words
      outside `words` do not change. */
  lemma {:induction false} AccumulateInverted(s: Server, id: int, words: seq<string>, delta: real)
    ensures var r := Accumulate(s, id, words, delta);
      && (forall w :: w in r.wordToDocumentFreqs <==> w in s.wordToDocumentFreqs || w in words)
      && (forall w :: w !in words && w in s.wordToDocumentFreqs ==> r.wordToDocumentFreqs[w] == s.wordToDocumentFreqs[w])
    decreases |words|
  {
    if |words| > 0 {
      AccumulateInverted(AddOccurrence(s, words[0], id, delta), id, words[1..], delta);
    }
  }

  /** `c` shares of `1 / n` are `c / n`. */
  lemma TimesShare(c: nat, n: nat)
    requires n > 0
    ensures Times(c, 1.0 / (n as real)) == (c as real) / (n as real)
  {
    TimesIsProduct(c, 1.0 / (n as real));
  }

  /** `n` shares of `1 / n` make one. */
  lemma WholeShare(n: nat)
    requires n > 0
    ensures Times(n, 1.0 / (n as real)) == 1.0
  {
    TimesShare(n, n);
  }

  /** Bumping an empty map by `1 / |words|` per word gives the term
      frequencies. */
  lemma SharesAreTermFrequencies(words: seq<string>)
    requires |words| > 0
    ensures BumpEach(map[], words, 1.0 / (|words| as real)) == TermFrequencies(words)
  {
    var f := BumpEach(map[], words, 1.0 / (|words| as real));
    var tf := TermFrequencies(words);
    BumpEachValues(map[], words, 1.0 / (|words| as real));
    forall w | w in f
      ensures f[w] == tf[w]
    {
      TimesShare(multiset(words)[w], |words|);
    }
    assert f.Keys == tf.Keys;
  }

  /** The term frequencies of a non-empty word list add up to one. */
  lemma TermFrequenciesSumToOne(words: seq<string>)
    requires |words| > 0
    ensures MapSum(TermFrequencies(words)) == 1.0
  {
    SharesAreTermFrequencies(words);
    BumpEachSum(map[], words, 1.0 / (|words| as real));
    WholeShare(|words|);
    assert MapSum<string>(map[]) == 0.0;
  }

  lemma AddOccurrenceKeepsMirror(s: Server, w: string, id: int, delta: real)
    requires Mirror(s.wordToDocumentFreqs, s.documentToWordFreqs)
    ensures Mirror(AddOccurrence(s, w, id, delta).wordToDocumentFreqs, AddOccurrence(s, w, id, delta).documentToWordFreqs)
  {
    var p := Get(s.wordToDocumentFreqs, w, map[]);
    var f := Get(s.documentToWordFreqs, id, map[]);
    assert Get(p, id, 0.0) == Get(f, w, 0.0);
  }

  lemma {:induction false} AccumulateKeepsMirror(s: Server, id: int, words: seq<string>, delta: real)
    requires Mirror(s.wordToDocumentFreqs, s.documentToWordFreqs)
    ensures Mirror(Accumulate(s, id, words, delta).wordToDocumentFreqs, Accumulate(s, id, words, delta).documentToWordFreqs)
    decreases |words|
  {
    if |words| > 0 {
      AddOccurrenceKeepsMirror(s, words[0], id, delta);
      AccumulateKeepsMirror(AddOccurrence(s, words[0], id, delta), id, words[1..], delta);
    }
  }

  /** Indexing a document with no forward entry yet stores its term
      frequencies. */
  lemma IndexWordsEntry(s: Server, id: int, words: seq<string>)
    requires id !in s.documentToWordFreqs
    ensures Get(IndexWords(s, id, words).documentToWordFreqs, id, map[]) == TermFrequencies(words)
  {
    if |words| == 0 {
      assert TermFrequencies(words) == map[];
    } else {
      AccumulateForward(s, id, words, 1.0 / (|words| as real));
      SharesAreTermFrequencies(words);
    }
  }

  /** Indexing adds at most the entry of `id` to the forward table and
      leaves every other entry alone. */
  lemma IndexWordsOthers(s: Server, id: int, words: seq<string>)
    ensures var r := IndexWords(s, id, words);
      && r.documentToWordFreqs.Keys <= s.documentToWordFreqs.Keys + {id}
      && (forall d :: d != id && d in s.documentToWordFreqs ==> d in r.documentToWordFreqs && r.documentToWordFreqs[d] == s.documentToWordFreqs[d])
  {
    if |words| > 0 {
      var r := IndexWords(s, id, words);
      AccumulateForward(s, id, words, 1.0 / (|words| as real));
      forall d | d in r.documentToWordFreqs
        ensures d in s.documentToWordFreqs.Keys + {id}
      {
      }
    }
  }

  /** Indexing keeps the two tables mirrored and touches only the posting
      lists of the document's words. */
  lemma IndexWordsInverted(s: Server, id: int, words: seq<string>)
    requires Mirror(s.wordToDocumentFreqs, s.documentToWordFreqs)
    ensures var r := IndexWords(s, id, words);
      && Mirror(r.wordToDocumentFreqs, r.documentToWordFreqs)
      && (forall w :: w in s.wordToDocumentFreqs && w !in words ==>
            w in r.wordToDocumentFreqs && r.wordToDocumentFreqs[w] == s.wordToDocumentFreqs[w])
  {
    if |words| > 0 {
      AccumulateKeepsMirror(s, id, words, 1.0 / (|words| as real));
      AccumulateInverted(s, id, words, 1.0 / (|words| as real));
    }
  }

  /** A successful add keeps the invariant and adds one document. */
  lemma AddDocumentIndexes(s: Server, id: int, document: string, status: DocumentStatus, ratings: seq<int>)
    requires Valid(s)
    requires AddDocument(s, id, document, status, ratings).Ok?
    ensures var r := AddDocument(s, id, document, status, ratings).value;
      && Valid(r)
      && GetDocumentCount(r) == GetDocumentCount(s) + 1
  {
    var words := SplitIntoWordsNoStop(s, document);
    var r := AddDocument(s, id, document, status, ratings).value;
    var indexed := IndexWords(s, id, words);
    assert r.wordToDocumentFreqs == indexed.wordToDocumentFreqs && r.documentToWordFreqs == indexed.documentToWordFreqs;
    IndexWordsOthers(s, id, words);
    IndexWordsInverted(s, id, words);
    assert r.documentToWordFreqs.Keys <= r.documentIds;
  }

  /** A successful add stores the document's term frequencies and touches
      no other document's entry and no posting list of a word the document
      does not contain. */
  lemma AddDocumentFrequencies(s: Server, id: int, document: string, status: DocumentStatus, ratings: seq<int>)
    requires Valid(s)
    requires AddDocument(s, id, document, status, ratings).Ok?
    ensures var r := AddDocument(s, id, document, status, ratings).value;
      && GetWordFrequencies(r, id) == TermFrequencies(SplitIntoWordsNoStop(s, document))
      && (forall d :: d != id ==> GetWordFrequencies(r, d) == GetWordFrequencies(s, d))
      && (forall w :: w in s.wordToDocumentFreqs && w !in SplitIntoWordsNoStop(s, document) ==>
            w in r.wordToDocumentFreqs && r.wordToDocumentFreqs[w] == s.wordToDocumentFreqs[w])
  {
    var words := SplitIntoWordsNoStop(s, document);
    var r := AddDocument(s, id, document, status, ratings).value;
    var indexed := IndexWords(s, id, words);
    assert r.wordToDocumentFreqs == indexed.wordToDocumentFreqs && r.documentToWordFreqs == indexed.documentToWordFreqs;
    IndexWordsEntry(s, id, words);
    IndexWordsOthers(s, id, words);
    IndexWordsInverted(s, id, words);
  }

  // ---------------------------------------------------------------- proofs about removing

  /** Removal keeps the two tables mirrored. */
  lemma RemoveDocumentKeepsMirror(s: Server, id: int)
    requires Valid(s)
    ensures Mirror(RemoveDocument(s, id).wordToDocumentFreqs, RemoveDocument(s, id).documentToWordFreqs)
  {
    if id in s.documentIds {
      var r := RemoveDocument(s, id);
      var inv, fwd := s.wordToDocumentFreqs, s.documentToWordFreqs;
      var inv', fwd' := r.wordToDocumentFreqs, r.documentToWordFreqs;
      forall w, d | w in inv' && d in inv'[w]
        ensures d in fwd' && w in fwd'[d] && fwd'[d][w] == inv'[w][d]
      {
        assert d != id && d in inv[w] && inv'[w][d] == inv[w][d];
      }
      forall d, w | d in fwd' && w in fwd'[d]
        ensures w in inv' && d in inv'[w]
      {
        assert d != id && d in inv[w];
      }
    }
  }

  /** Removal keeps the invariant, drops exactly one document when the id
      is live, and leaves the id with no words. */
  lemma RemoveDocumentPreservesValid(s: Server, id: int)
    ensures Valid(s) ==> Valid(RemoveDocument(s, id))
    ensures Valid(s) && id in s.documentIds ==> GetDocumentCount(RemoveDocument(s, id)) == GetDocumentCount(s) - 1
    ensures Valid(s) ==> GetWordFrequencies(RemoveDocument(s, id), id) == map[]
  {
    if Valid(s) {
      RemoveDocumentKeepsMirror(s, id);
      if id in s.documentIds {
        assert RemoveDocument(s, id).documents.Keys == s.documents.Keys - {id};
      }
    }
  }

  /** Removal erases `id` from every posting list and changes no other
      document's forward entry. */
  lemma RemoveDocumentErases(s: Server, id: int)
    requires Valid(s)
    ensures var r := RemoveDocument(s, id);
      && (forall w :: w in s.wordToDocumentFreqs ==> r.wordToDocumentFreqs[w] == s.wordToDocumentFreqs[w] - {id})
      && (forall d :: d != id ==> GetWordFrequencies(r, d) == GetWordFrequencies(s, d))
  {
    var r := RemoveDocument(s, id);
    forall w | w in s.wordToDocumentFreqs
      ensures r.wordToDocumentFreqs[w] == s.wordToDocumentFreqs[w] - {id}
    {
      if id !in s.documentIds {
        assert id !in s.wordToDocumentFreqs[w];
      } else if w !in GetWordFrequencies(s, id) {
        assert id !in s.wordToDocumentFreqs[w];
      }
    }
  }
}

=== FILE: string_processing.dfy ===
/** Tokenisers: the owning splitter `SplitIntoWords`, the borrowing splitter
    `SplitIntoWordsView`, and the stop-word normaliser
    `MakeUniqueNonEmptyStrings`. */
module StringProcessing {
  import opened Collections

  /** Position of the first space in `text`, or `|text|` when there is none
      (std::string_view::find returning npos). */
  function FindSpace(text: string): (i: nat)
    ensures i <= |text|
    ensures i < |text| ==> text[i] == ' '
    ensures forall k :: 0 <= k < i ==> text[k] != ' '
  {
    if |text| == 0 then 0
    else if text[0] == ' ' then 0
    else 1 + FindSpace(text[1..])
  }

  /** The pieces joined back together with one space between neighbours. */
  function Join(pieces: seq<string>): string
  {
    if |pieces| == 0 then []
    else if |pieces| == 1 then pieces[0]
    else pieces[0] + [' '] + Join(pieces[1..])
  }

  /** The pieces that are not empty, in order. */
  function NonEmpty(pieces: seq<string>): seq<string>
  {
    if |pieces| == 0 then []
    else (if |pieces[0]| == 0 then [] else [pieces[0]]) + NonEmpty(pieces[1..])
  }

  /** The characters of `text` other than spaces, in order. */
  function WithoutSpaces(text: string): string
  {
    if |text| == 0 then []
    else (if text[0] == ' ' then [] else [text[0]]) + WithoutSpaces(text[1..])
  }

  lemma {:induction false} WithoutSpacesMembers(text: string, c: char)
    ensures c in WithoutSpaces(text) <==> c in text && c != ' '
    decreases |text|
  {
    if |text| > 0 {
      WithoutSpacesMembers(text[1..], c);
      assert text == [text[0]] + text[1..];
    }
  }

  /** Splits at every single space: repeated, leading or trailing spaces give
      empty pieces, and the empty text gives one empty piece. */
  function SplitIntoWordsView(text: string): (r: seq<string>)
    ensures |r| == multiset(text)[' '] + 1
    ensures forall p :: p in r ==> ' ' !in p
    ensures Join(r) == text
    decreases |text|
  {
    var i := FindSpace(text);
    if i == |text| then
      assert ' ' !in text;
      [text]
    else
      var rest := SplitIntoWordsView(text[i + 1..]);
      CutAtSpace(text, i);
      assert ([text[..i]] + rest)[1..] == rest;
      [text[..i]] + rest
  }

  lemma CutAtSpace(text: string, i: nat)
    requires i < |text| && text[i] == ' '
    requires forall k :: 0 <= k < i ==> text[k] != ' '
    ensures text == text[..i] + [' '] + text[i + 1..]
    ensures ' ' !in text[..i]
    ensures multiset(text)[' '] == multiset(text[i + 1..])[' '] + 1
  {
    assert text == text[..i] + [' '] + text[i + 1..];
    assert ' ' !in text[..i];
    assert multiset(text) == multiset(text[..i]) + multiset([' ']) + multiset(text[i + 1..]);
  }

  /** The character loop of SplitIntoWords: `word` is the word being built
      from the characters already consumed. */
  function SplitFrom(text: string, word: string): (r: seq<string>)
    requires ' ' !in word
    ensures forall w :: w in r ==> |w| > 0 && ' ' !in w
    ensures Flatten(r) == word + WithoutSpaces(text)
    decreases |text|
  {
    if |text| == 0 then
      if |word| == 0 then [] else [word]
    else if text[0] == ' ' then
      var rest := SplitFrom(text[1..], []);
      if |word| == 0 then rest
      else
        assert ([word] + rest)[1..] == rest;
        [word] + rest
    else
      var r := SplitFrom(text[1..], word + [text[0]]);
      Associate(word, [text[0]], WithoutSpaces(text[1..]));
      r
  }

  /** Splits at spaces and drops the empty pieces that runs of spaces leave. */
  function SplitIntoWords(text: string): (r: seq<string>)
    ensures forall w :: w in r ==> |w| > 0 && ' ' !in w
    ensures Flatten(r) == WithoutSpaces(text)
  {
    SplitFrom(text, [])
  }

  lemma {:induction false} FindSpaceAfterWord(word: string, text: string)
    requires ' ' !in word
    ensures FindSpace(word + text) == |word| + FindSpace(text)
    decreases |word|
  {
    if |word| == 0 {
      assert word + text == text;
    } else {
      assert (word + text)[1..] == word[1..] + text;
      assert word[0] in word;
      FindSpaceAfterWord(word[1..], text);
    }
  }

  /** A word followed by a space and more text: the word is the first piece. */
  lemma ViewAfterWord(word: string, text: string)
    requires ' ' !in word
    requires |text| > 0 && text[0] == ' '
    ensures SplitIntoWordsView(word + text) == [word] + SplitIntoWordsView(text[1..])
  {
    FindSpaceAfterWord(word, text);
    assert (word + text)[..|word|] == word;
    assert (word + text)[|word| + 1..] == text[1..];
  }

  lemma ViewOfWord(word: string)
    requires ' ' !in word
    ensures SplitIntoWordsView(word) == [word]
  {
    FindSpaceAfterWord(word, []);
    assert word + [] == word;
  }

  lemma {:induction false} NonEmptyCons(p: string, rest: seq<string>)
    ensures NonEmpty([p] + rest) == (if |p| == 0 then [] else [p]) + NonEmpty(rest)
  {
    assert ([p] + rest)[1..] == rest;
  }

  lemma {:induction false} SplitFromIsNonEmptyView(text: string, word: string)
    requires ' ' !in word
    ensures SplitFrom(text, word) == NonEmpty(SplitIntoWordsView(word + text))
    decreases |text|
  {
    if |text| == 0 {
      SplitAtEnd(word);
    } else if text[0] == ' ' {
      SplitFromIsNonEmptyView(text[1..], []);
      SplitAtSpaceStep(text, word);
    } else {
      SplitFromIsNonEmptyView(text[1..], word + [text[0]]);
      SplitAtLetterStep(text, word);
    }
  }

  lemma SplitAtEnd(word: string)
    requires ' ' !in word
    ensures SplitFrom([], word) == NonEmpty(SplitIntoWordsView(word + []))
  {
    assert word + [] == word;
    ViewOfWord(word);
    NonEmptyCons(word, []);
  }

  lemma Associate<T>(a: seq<T>, b: seq<T>, c: seq<T>)
    ensures a + b + c == a + (b + c)
  {
  }

  /** Moving the first element of `text` to the end of `word` keeps the
      concatenation. */
  lemma MoveFirst<T>(word: seq<T>, text: seq<T>)
    requires |text| > 0
    ensures word + [text[0]] + text[1..] == word + text
  {
    assert text == [text[0]] + text[1..];
  }

  lemma SplitAtLetterStep(text: string, word: string)
    requires ' ' !in word
    requires |text| > 0 && text[0] != ' '
    requires SplitFrom(text[1..], word + [text[0]]) == NonEmpty(SplitIntoWordsView(word + [text[0]] + text[1..]))
    ensures SplitFrom(text, word) == NonEmpty(SplitIntoWordsView(word + text))
  {
    var joined := word + [text[0]] + text[1..];
    MoveFirst(word, text);
    calc {
      SplitFrom(text, word);
      SplitFrom(text[1..], word + [text[0]]);
      NonEmpty(SplitIntoWordsView(joined));
    }
  }

  lemma SplitAtSpaceStep(text: string, word: string)
    requires ' ' !in word
    requires |text| > 0 && text[0] == ' '
    requires SplitFrom(text[1..], []) == NonEmpty(SplitIntoWordsView([] + text[1..]))
    ensures SplitFrom(text, word) == NonEmpty(SplitIntoWordsView(word + text))
  {
    var rest := SplitIntoWordsView(text[1..]);
    assert [] + text[1..] == text[1..];
    ViewAfterWord(word, text);
    NonEmptyCons(word, rest);
  }

  /** The owning splitter keeps exactly the non-empty pieces of the
      borrowing splitter, in the same order. */
  lemma SplitIntoWordsIsNonEmptyView(text: string)
    ensures SplitIntoWords(text) == NonEmpty(SplitIntoWordsView(text))
  {
    SplitFromIsNonEmptyView(text, []);
    assert [] + text == text;
  }

  /** A word of the owning splitter is a non-empty piece of the borrowing
      one. */
  lemma {:induction false} NonEmptyMembers(pieces: seq<string>)
    ensures forall x :: x in NonEmpty(pieces) <==> x in pieces && |x| > 0
  {
    if |pieces| > 0 {
      NonEmptyMembers(pieces[1..]);
      assert pieces == [pieces[0]] + pieces[1..];
    }
  }

  /** Empty text, or text that starts with a space, has an empty first
      piece. */
  lemma LeadingEmptyPiece(text: string)
    requires |text| == 0 || text[0] == ' '
    ensures SplitIntoWordsView(text)[0] == []
  {
  }

  /** The distinct non-empty strings of the input container. */
  function MakeUniqueNonEmptyStrings(strings: seq<string>): (r: set<string>)
    ensures forall s :: s in r <==> s in strings && |s| > 0
  {
    if |strings| == 0 then {}
    else
      var last := strings[|strings| - 1];
      var front := MakeUniqueNonEmptyStrings(strings[..|strings| - 1]);
      assert strings == strings[..|strings| - 1] + [last];
      if |last| == 0 then front else front + {last}
  }

  /** Normalising an already normalised set, listed in any order and with any
      repetition, gives the same set back. */
  lemma MakeUniqueNonEmptyStringsIdempotent(strings: seq<string>, listing: seq<string>)
    requires forall s :: s in listing <==> s in MakeUniqueNonEmptyStrings(strings)
    ensures MakeUniqueNonEmptyStrings(listing) == MakeUniqueNonEmptyStrings(strings)
  {
  }
}
